=== FILE: README.md ===
# TodoApi uploads and tasks — a Dafny model

This project models the core of TodoApi, an ASP.NET Core service. It covers two parts.

**The batched, deduplicating file-upload engine.**
- `FileUploadService.SaveUploadedFiles` walks a request's files in order. Each file ends up in exactly one of four ways:
  - rejected by admission: it is null, empty, or over the configured size;
  - skipped as a duplicate: its logical path `uploads/{userId}/{name}` already has a record, and it contributes that record's batch token;
  - skipped because its storage path is already taken;
  - written.
- After the walk, the service chooses the token it returns:
  - files were written: a new batch holds all of them;
  - nothing was written and exactly one reuse token was seen: that token is returned and the store does not change;
  - otherwise: a new, empty batch.
- `FileDbService` keeps two tables, upload batches and uploaded-file records, with a foreign key from each record to its batch.
- `UploadsController` adds three things:
  - whole-request admission, with three ordered messages;
  - the shareable URL `{base}/uploads/shared/{token}`;
  - the not-found rule for shared links.

**Owner-scoped task access.** `TaskService` filters every read and write of the task table by the caller's user id.

Files:
- `wrappers.dfy`: `Option`.
- `search.dfy`: module `Search`, the first-match search every table lookup uses.
- `path_text.dfy`: module `PathText`.
  - Decimal rendering of the user id.
  - `Path.GetFileName`, `Path.Combine`.
  - The dedup key and the storage path.
- `file_db.dfy`: module `FileDb`, the two tables and the four `FileDbService` operations.
- `file_upload.dfy`: module `FileUpload`.
  - The per-file walk, the upload operation and share-URL building.
  - An independent per-file account of the walk (`Fate`).
- `uploads_controller.dfy`: module `UploadsController`.
- `tasks.dfy`: module `Tasks`, covering `TaskService` over the task table.

How the model represents the system:
- Every operation is a pure function from a state to a result and a new state.
- Queries return only a result, so by construction they leave the store unchanged.
- The environment enters as parameters. These are:
  - the web root;
  - the size bound;
  - the caller's user id;
  - the request's base URL;
  - the set of occupied storage paths;
  - the freshly minted batch token (`newToken`). It must look like `Guid.ToString("N")` output and must not be a token already in the table.
- A batch's file list is the records whose `uploadBatchId` is the batch's id, taken in table (insertion) order. The `Include` of the `Files` navigation loads these records but leaves their order to the database; see "Left out".
- New batch ids come from the identity column.
- `FileDb.KeysUnique` states the keys of the data model: batch ids are distinct (the primary key of `UploadBatches`) and no two records share a logical path (what the dedup lookup relies on, though no index enforces it).
- The task table is a sequence in store order with distinct ids. A new task's id is a parameter that is not already taken.

The model follows the code in these places:
- The logical path is `uploads/{userId}/{name}`.
- Shared links resolve to a record's logical `FilePath` prefixed with the base URL, not to its storage location.
- A failed write is not caught and turned into a skip; see "Left out".

## Model

| member | source | states |
|---|---|---|
| PathText.BaseName | TodoApi/Services/FileUploadService.cs:49 | the file name contains no separator and is no longer than the client's name |
| PathText.BaseNameAfterSeparator | TodoApi/Services/FileUploadService.cs:49 | a separator-free name that follows a separator (or starts the path) is the file name of the whole path |
| PathText.CombineJoins | TodoApi/Services/FileUploadService.cs:62-65 | `Path.Combine` keeps the second part as the tail of the result; joining two non-empty relative parts keeps the first part and puts exactly one separator between them; an empty part yields the other, and a rooted second part is the whole result |
| PathText.StoragePathEndsInName | TodoApi/Services/FileUploadService.cs:62-65 | the storage path ends in the file name, and a non-empty plain name is its file name, so distinct names of one user get distinct storage paths |
| PathText.DedupKey | TodoApi/Services/FileUploadService.cs:50 | the logical path is as long as `uploads/`, the user id's text, one separator and the name together |
| PathText.DedupKeyNamesFile | TodoApi/Services/FileUploadService.cs:50 | the logical path starts with `uploads/`, and a plain name is its file name |
| PathText.IntToString | TodoApi/Services/FileUploadService.cs:50 | the user id's text is non-empty, starts with '-' exactly for negative ids, and contains no path separator |
| PathText.IntToStringInjective | TodoApi/Services/FileUploadService.cs:50 | distinct user ids render as distinct folder names |
| PathText.BaseNameIsLastSegment | TodoApi/Services/FileUploadService.cs:49 | the file name is the last segment of the client's name: a suffix of it, free of separators, and either the whole name or preceded by a separator |
| PathText.BaseNameOfPlainName | TodoApi/Services/FileUploadService.cs:49 | a name without a separator is kept unchanged |
| PathText.DedupKeyInjective | TodoApi/Services/FileUploadService.cs:50 | equal logical paths mean the same user and the same file name, so dedup keys never collide across users |
| Search.FirstWhere | TodoApi/Db/FileUploadDbService.cs:31-33 | the position of the first row meeting the condition (here: the record with the path; likewise the batch with a token and the row with a key), or none exactly when no row meets it |
| Search.FirstWhereExtend | TodoApi/Db/FileUploadDbService.cs:45-47 | appending rows never moves a first match the table already has, so earlier batches keep answering for their tokens |
| FileDb.FilesOfBatch | TodoApi/Db/FileUploadDbService.cs:45-46 | a batch's files are exactly the records pointing at its id |
| FileDb.FilesOfBatchAppend | TodoApi/Db/FileUploadDbService.cs:45-46 | a batch's file list keeps table order: the files of appended records follow the earlier ones |
| FileDb.NextBatchId | TodoApi/Migrations/20250803075906_AddUploadBatchModel.cs:26-27 | the identity column gives a new batch a positive id not used by any batch |
| FileDb.CreateBatch | TodoApi/Db/FileUploadDbService.cs:16-28 | exactly one batch is appended, carrying the new token and a new id; the token set grows by that token; records are untouched |
| FileDb.GetTokenByFilePath | TodoApi/Db/FileUploadDbService.cs:29-35 | a found token belongs to a stored batch, and a record with the path exists; it is the token of a batch whose id is the one that the first record with the path points at; in a consistent store, any record with the path yields a token |
| FileDb.AddUploadedFiles | TodoApi/Db/FileUploadDbService.cs:37-41 | the records are appended in order after the existing ones; batches are untouched |
| FileDb.GetFilePathsByToken | TodoApi/Db/FileUploadDbService.cs:43-53 | an unknown token resolves to nothing; otherwise the result is the paths of the records pointing at the first batch with the token, in table order, which is empty when that batch has no files; every resolved path is the path of a stored record |
| FileDb.NoFilesOfUnknownBatch | TodoApi/Migrations/20250803075906_AddUploadBatchModel.cs:43-49 | under the foreign key, no record points at an id that is not a batch |
| FileDb.CreateBatchResolvesEmpty | TodoApi/Db/FileUploadDbService.cs:16-28 | a freshly created batch resolves to no paths, the store stays consistent, and no path lookup changes its answer |
| FileDb.AddUploadedFilesKeepsLookups | TodoApi/Db/FileUploadDbService.cs:37-41 | appending records never changes the token found for a path that already had a record, nor the token set |
| FileDb.AttachKeepsValid | TodoApi/Migrations/20250803075906_AddUploadBatchModel.cs:43-49 | records stamped with the new batch's id keep every foreign key satisfied |
| FileDb.AttachResolves | TodoApi/Db/FileUploadDbService.cs:43-53 | the new batch's token resolves to exactly the attached records' paths, in order |
| FileDb.AttachLookup | TodoApi/Db/FileUploadDbService.cs:29-35 | looking up an attached path that had no earlier record yields the new token |
| FileDb.AttachKeepsEarlierLinks | TodoApi/Db/FileUploadDbService.cs:43-53 | creating a batch and attaching records to it leaves every earlier token resolving to the same paths |
| FileDb.AttachRoundTrip | TodoApi/Db/FileUploadDbService.cs:16-53 | create then attach: the store stays consistent, the token resolves to the records' paths, and each newly recorded path looks up to the token |
| FileDb.AttachKeepsKeysUnique | TodoApi/Migrations/20250803075906_AddUploadBatchModel.cs:34 | creating a batch and attaching records whose paths are new and pairwise distinct keeps batch ids distinct and logical paths unique |
| FileDb.UniqueKeysPinLookup | TodoApi/Db/FileUploadDbService.cs:29-35 | with unique keys, the path lookup finds the one record with the path and yields the token of the batch it points at, so the unordered first match has only one candidate |
| FileUpload.ReuseToken | TodoApi/Services/FileUploadService.cs:53-54 | a dedup hit is a non-empty token of a stored batch, namely of a batch with the id that the first record with the file's logical path points at; in a consistent store a hit happens exactly when a record has that path |
| FileUpload.Classify | TodoApi/Services/FileUploadService.cs:43-71 | the four outcomes, each as an if-and-only-if: rejected exactly when admission fails; a duplicate exactly when the file is admitted and the dedup probe hits, carrying the found token; occupied exactly when it is admitted, the probe misses and its storage path is taken; written exactly when it is admitted, the probe misses and the path is free |
| FileUpload.RecordNamesFile | TodoApi/Services/FileUploadService.cs:78-84 | a written file's record belongs to the caller and has no batch yet; its logical path ends in the uploaded file's name, and so does its storage path when that name is non-empty |
| FileUpload.StepExtends | TodoApi/Services/FileUploadService.cs:41-85 | one iteration only adds: the claimed paths and the reuse tokens grow, the earlier skipped names and records stay in front, and the file lands in exactly one of the two lists |
| FileUpload.ScanFiles | TodoApi/Services/FileUploadService.cs:41-85 | the walk only adds to the occupied paths, and reports every submitted file once, as a skipped name or a written record |
| FileUpload.AssignBatch | TodoApi/Services/FileUploadService.cs:115-118 | every record gets the batch id; nothing else and no order changes |
| FileUpload.SoleElement | TodoApi/Services/FileUploadService.cs:91-95 | the token taken from a one-element set is its only element |
| FileUpload.SaveUploadedFiles | TodoApi/Services/FileUploadService.cs:88-127 | the three-way choice of the token. When files were written: the new token, one new batch, and the records with its id appended. When nothing was written and one reuse token was seen: that token, with the store unchanged. Otherwise: a new empty batch whose token is none of the reuse tokens |
| FileUpload.GetSharedFileUrls | TodoApi/Services/FileUploadService.cs:130-138 | one URL per resolved path, in order, each equal to the base URL, "/" and the path |
| FileUpload.ScanReuseTokensExist | TodoApi/Services/FileUploadService.cs:53-57 | every collected reuse token is a non-empty token of a stored batch |
| FileUpload.ScanFollowsFates | TodoApi/Services/FileUploadService.cs:41-85 | the walk agrees with an independent per-file account. The skipped names, the written records and the reuse tokens are those whose fate says so, in input order. Storage afterwards is the prior storage plus the paths the request claimed |
| FileUpload.LaterSameNameIsOccupied | TodoApi/Services/FileUploadService.cs:62-71 | two files in one request with the same storage path that both miss the dedup lookup: the later one is skipped as occupied |
| FileUpload.RejectedFilesTouchNothing | TodoApi/Services/FileUploadService.cs:43-47 | when no file passes admission, nothing is written, no token is collected, storage is unchanged, and each file is reported under its raw name or "Unknown" |
| FileUpload.ScanWritesFreshPaths | TodoApi/Services/FileUploadService.cs:61-84 | every written record belongs to the caller and is the record of a submitted file that passed admission and missed the dedup lookup. Its storage path was free before the request and is distinct from every other record's |
| FileUpload.UploadedPathsWereUnrecorded | TodoApi/Services/FileUploadService.cs:52-59 | no written file's logical path had a record before the request |
| FileUpload.KeyDeterminesStorage | TodoApi/Services/FileUploadService.cs:49-65 | two files of one caller with the same logical path have the same storage path |
| FileUpload.ScanWritesUniquePaths | TodoApi/Services/FileUploadService.cs:61-84 | the records one request writes have pairwise distinct logical paths |
| FileUpload.UploadKeepsKeysUnique | TodoApi/Services/FileUploadService.cs:88-127 | every upload keeps batch ids distinct and each logical path on at most one record |
| FileUpload.AttachUploads | TodoApi/Services/FileUploadService.cs:110-118 | storing records whose logical paths had no record under a new batch keeps the store consistent; the new token resolves to exactly their paths in order, and each path looks up to the new token |
| FileUpload.UploadRoundTrip | TodoApi/Services/FileUploadService.cs:110-127 | when files were written, the returned token resolves to exactly their logical paths in submission order, each of them looks up to that token, and the store stays consistent |
| FileUpload.UploadTokenIsResolvable | TodoApi/Services/FileUploadService.cs:88-127 | every returned token names a stored batch afterwards and the store stays consistent; a new empty batch resolves to nothing |
| FileUpload.SingleNewFileUpload | TodoApi/Services/FileUploadService.cs:61-127 | a single admitted file that is new and whose storage path is free is written into a new batch carrying the new token, and nothing is skipped |
| FileUpload.SingleRecordedFileUpload | TodoApi/Services/FileUploadService.cs:52-98 | a single file found by the dedup lookup returns the found token, is reported skipped, and changes nothing |
| FileUpload.SingleOrphanFileUpload | TodoApi/Services/FileUploadService.cs:61-127 | a single admitted file that misses the dedup lookup while its storage path is taken is reported skipped under its file name; the request creates a new empty batch with the new token and leaves the disk unchanged |
| FileUpload.UploadKeepsEarlierLinks | TodoApi/Services/FileUploadService.cs:88-127 | an upload never disturbs a link handed out before: every token the store already had resolves to the same paths afterwards |
| FileUpload.RecordedFileIsFound | TodoApi/Services/FileUploadService.cs:52-58 | once a file's record is attached under a fresh batch, the dedup probe for that file finds that batch's token |
| FileUpload.ReuploadReturnsSameToken | TodoApi/Services/FileUploadService.cs:41-127 | uploading the same new file twice returns the same token both times; the second request changes nothing |
| FileUpload.DedupIsPerOwner | TodoApi/Services/FileUploadService.cs:49-54 | when every record's path is its owner's key, a dedup hit for the caller's file comes from one of the caller's own records |
| FileUpload.UploadKeepsOwnerKeyed | TodoApi/Services/FileUploadService.cs:78-84 | uploads keep every record's path equal to its owner's key |
| UploadsController.Admission | TodoApi/Controllers/UploadsController.cs:24-31 | the three rejection messages in their order, each exactly when its check is the first to fail; admission exactly when the list is present and non-empty and every file is non-empty and within the bound |
| UploadsController.Upload | TodoApi/Controllers/UploadsController.cs:22-46 | a rejected request is a bad request with the admission message and no state change; an admitted one returns the service's token as `{base}/uploads/shared/{token}` with its skipped list |
| UploadsController.GetSharedFiles | TodoApi/Controllers/UploadsController.cs:57-70 | not found, with "Invalid or expired link", exactly when the token resolves to no path; otherwise the non-empty URL list |
| UploadsController.AdmittedRequestRejectsNothing | TodoApi/Controllers/UploadsController.cs:24-35 | after controller admission, the service's own admission check rejects none of the files |
| UploadsController.SharedUrlsOfRecords | TodoApi/Controllers/UploadsController.cs:59-69 | a token resolving to the paths of some records is served as one URL per record, in record order |
| UploadsController.SharedLinkListsWrittenFiles | TodoApi/Controllers/UploadsController.cs:57-69 | the shared link of an upload that wrote files lists one URL per written file, in submission order |
| UploadsController.OrphanReuploadGetsFreshDeadLink | TodoApi/Services/FileUploadService.cs:61-127 | a file whose bytes are on disk but which has no record is reported skipped, gets a new token whose link is not found, and leaves records and disk unchanged, so every retry repeats this |
| Tasks.FoundIsUnique | TodoApi/Db/TaskDbService.cs:21-24 | lookup by primary key: with distinct ids, the row holding the id is the one found |
| Tasks.GetUserTasks | TodoApi/Services/TaskService.cs:16-20 | a row is listed exactly when it is stored and owned by the caller |
| Tasks.UserTasksAppend | TodoApi/Services/TaskService.cs:16-20 | the filter keeps store order: the list of a concatenation is the concatenation of the lists |
| Tasks.GetById | TodoApi/Services/TaskService.cs:22-26 | a row is returned only if it has the id and the caller owns it; with distinct ids, exactly when such a row exists |
| Tasks.Create | TodoApi/Services/TaskService.cs:28-32 | the stored row takes the caller as owner, whatever owner was submitted, and keeps the submitted title and flag; it is appended and the ids stay distinct |
| Tasks.CreateThenRead | TodoApi/Services/TaskService.cs:28-32 | a created task reads back for its owner and not for anyone else; it ends the owner's list, and other users' lists are unchanged |
| Tasks.Update | TodoApi/Services/TaskService.cs:34-44 | refused, with the table unchanged, exactly when the row is missing or owned by someone else; otherwise only that row's title and flag change |
| Tasks.UpdateThenRead | TodoApi/Services/TaskService.cs:34-44 | updates keep ids distinct, and an accepted update reads back with the new title and flag and the same id and owner |
| Tasks.UpdateIsolatesOwners | TodoApi/Services/TaskService.cs:40-43 | an update by one user leaves every other user's list exactly as it was |
| Tasks.Delete | TodoApi/Services/TaskService.cs:46-53 | refused, with the table unchanged, exactly when the row is missing or owned by someone else; otherwise exactly that row is removed |
| Tasks.DeleteThenRead | TodoApi/Db/TaskDbService.cs:40-48 | deletes keep ids distinct and keep every row with another id, and after an accepted delete nobody can read the id |
| Tasks.UserTasksWithout | TodoApi/Db/TaskDbService.cs:45 | removing a row that another user owns leaves a user's list exactly as it was |
| Tasks.DeleteIsolatesOwners | TodoApi/Services/TaskService.cs:46-53 | a delete by one user leaves every other user's list exactly as it was |

## Left out

- File contents, streams and `CopyToAsync` are not modelled. A write is modelled as its storage path joining the set of occupied paths. `Directory.CreateDirectory` is not modelled: folders are implicit in paths.
- Write failures are not modelled; every write succeeds. The code catches no I/O exception, so a failing write (a full disk, a directory at the target path) aborts the whole request. For example, a client name ending in a separator gives an empty file name, and the target is then the user's folder itself.
- Concurrency and `async` are not modelled. Each request runs alone against one state, so the race between the existence check and the write is not modelled.
- Database failures (a failed `SaveChangesAsync`) are not modelled; every save succeeds.
- `Guid.NewGuid`, `DateTime.UtcNow` (`CreatedAt`, `UploadTime`) and console logging are not modelled. The token enters as the `newToken` parameter; the timestamps are dropped.
- Record ids of uploaded files are not modelled, because nothing in the core reads them.
- The request's scheme and host enter as a `baseUrl` parameter, the same value for the controller and the service. The service's empty base URL when there is no HTTP context is not modelled.
- `GetUserIdFromClaims` (claims lookup, `int.Parse`, the unauthorized exception) is not modelled; the caller's user id is a parameter. The `[Authorize]`/`[AllowAnonymous]` attributes are not modelled either.
- The web root resolution `WebRootPath ?? {cwd}/wwwroot` is not modelled; the resolved root is a parameter. The size bound `UploadSettings:MaxSize` is also a parameter, and the controller and the service use the same value.
- FileDb.GetTokenByFilePath: paths are compared by exact string equality. The migration that creates the `UploadedFiles` table is not part of this model, and none of the available sources sets the `FilePath` column's character set or collation; the likely default is MySQL 8's `utf8mb4` with `utf8mb4_0900_ai_ci`, which compares case- and accent-insensitively. So in the database, "report.pdf" after "Report.pdf", or "resume.pdf" after "résumé.pdf", would be a dedup hit, while the model writes it as a new file.
- FileDb.GetTokenByFilePath: `FirstOrDefault` without `OrderBy` leaves the choice among several matching records to the database; the model takes the first in table order. `FileUpload.UploadKeepsKeysUnique` shows that uploads keep at most one record per path, and `FileDb.UniqueKeysPinLookup` that the lookup then has a single candidate, so the order only matters for a store that already holds duplicate paths.
- FileUpload.ReuploadReturnsSameToken: holds only when the file's storage path is free. A file whose bytes are on disk without a record (a request that stopped between the write and the save) is skipped on every re-upload and each time gets a new token whose link is not found; `UploadsController.OrphanReuploadGetsFreshDeadLink` states this case.
- FileDb.GetFilePathsByToken: tokens are compared by exact string equality, not by the column's likely case- and accent-insensitive default collation. Minted tokens are lower-case hex, so this matters only for a link typed with upper-case letters, which the database would resolve and the model does not.
- FileDb.GetFilePathsByToken: `Include(b => b.Files)` has no `OrderBy`, so the order of the returned paths, and of the shared-link list built from them, is the database's choice. The model fixes it to table order, so the "in order" and "in submission order" clauses of `FileDb.AttachResolves`, `FileUpload.AttachUploads`, `FileUpload.UploadRoundTrip` and `UploadsController.SharedLinkListsWrittenFiles` describe that choice, not an order the program promises; the set of paths does not depend on it.
- PathText.IntToString: renders the user id with ASCII digits and '-' for negatives. `int.ToString()` and the interpolated string use the current culture, whose negative sign can differ. Digits are the same in every culture.
- PathText.BaseName: models `Path.GetFileName` with '/' as the only separator, as on Linux; Windows also splits on '\\' and ':'.
- FileDb.NextBatchId: the identity column is modelled as the largest id plus one. MySQL's auto-increment counter can run ahead of that after deletes; the model only needs the id to be new.
- Tasks.Create: the id comes from a parameter that is not already in the table. An explicit non-zero id on the submitted task, which Entity Framework would try to insert and the database could refuse, is not modelled.
- Tasks: the table is a sequence in insertion order, standing in for the unordered `ToListAsync` enumeration. `TaskDbService.UpdateAsync` always reports success, and `DeleteAsync`'s own missing-row check is reached but never fails after the service's check; the model folds both into the service's result.
- `AuthService`, `AuthController`, `TasksController`, the global exception middleware, `Program.cs` and the migrations' `Down` step are not part of this model. Only the foreign key and identity column of the migration are used.
- The `UploadedFile` model class has no `UploadBatchId` property, although the service assigns one. The model follows the migration's non-nullable foreign key column and the service's use of it.

=== FILE: file_db.dfy ===
/**
 * The persistence side of the upload engine (`FileDbService`): a table of
 * upload batches and a table of uploaded-file records, each record pointing
 * at its batch through `uploadBatchId`. A batch's file list is not stored a
 * second time: like the `Files` navigation that the queries `Include`, it is
 * the records whose `uploadBatchId` is the batch's id, in table order.
 */
module FileDb {
  import opened Wrappers
  import opened Search

  datatype UploadBatch = UploadBatch(id: int, token: string)

  datatype UploadedFile = UploadedFile(
    userId: int,
    filePath: string,      // logical path `uploads/{userId}/{name}`: the dedup key
    storagePath: string,   // where the bytes were written
    uploadBatchId: int)    // non-nullable foreign key into the batch table

  datatype Store = Store(batches: seq<UploadBatch>, files: seq<UploadedFile>)

  function Tokens(s: Store): (r: set<string>)
  {
    set b | b in s.batches :: b.token
  }

  function BatchIds(s: Store): (r: set<int>)
  {
    set b | b in s.batches :: b.id
  }

  /** A token as `Guid.NewGuid().ToString("N")` prints it: 32 lower-case hex digits. */
  predicate IsGuidN(t: string)
  {
    |t| == 32 && forall k :: 0 <= k < |t| ==> t[k] in "0123456789abcdef"
  }

  /**
   * The store invariant: every file record names an existing batch (the
   * non-nullable foreign key of the schema) and every batch carries a
   * minted token.
   */
  predicate Valid(s: Store)
  {
    && (forall f :: f in s.files ==> f.uploadBatchId in BatchIds(s))
    && (forall b :: b in s.batches ==> IsGuidN(b.token))
  }

  /** No two records share a logical path: the path is the dedup key. */
  predicate PathsUnique(fs: seq<UploadedFile>)
  {
    forall i, j :: 0 <= i < j < |fs| ==> fs[i].filePath != fs[j].filePath
  }

  /** No two batches share an id: the primary key of the batch table. */
  predicate BatchIdsUnique(bs: seq<UploadBatch>)
  {
    forall i, j :: 0 <= i < j < |bs| ==> bs[i].id != bs[j].id
  }

  /**
   * The keys of the data model: batch ids are a primary key, and each
   * logical path has at most one record. In such a store a lookup by path
   * has at most one record to find, so the unordered `FirstOrDefault`
   * cannot pick between candidates.
   */
  predicate KeysUnique(s: Store)
  {
    PathsUnique(s.files) && BatchIdsUnique(s.batches)
  }

  // ---------------------------------------------------------------------
  // First-match lookups (`FirstOrDefaultAsync` and the batch navigation)
  // ---------------------------------------------------------------------

  function TokenIs(token: string): (r: UploadBatch -> bool)
  {
    (b: UploadBatch) => b.token == token
  }

  function IdIs(id: int): (r: UploadBatch -> bool)
  {
    (b: UploadBatch) => b.id == id
  }

  function PathIs(path: string): (r: UploadedFile -> bool)
  {
    (f: UploadedFile) => f.filePath == path
  }

  /** `Batches.FirstOrDefaultAsync(b => b.Token == token)`, as a position. */
  function FirstBatchWithToken(bs: seq<UploadBatch>, token: string): (r: Option<nat>)
  {
    FirstWhere(bs, TokenIs(token))
  }

  /** The batch a record's `UploadBatch` navigation reaches, as a position. */
  function FirstBatchWithId(bs: seq<UploadBatch>, id: int): (r: Option<nat>)
  {
    FirstWhere(bs, IdIs(id))
  }

  /** `UploadedFiles.FirstOrDefaultAsync(f => f.FilePath == filePath)`, as a position. */
  function FirstFileWithPath(fs: seq<UploadedFile>, path: string): (r: Option<nat>)
  {
    FirstWhere(fs, PathIs(path))
  }

  /** The records attached to batch `id`, in table order. */
  function FilesOfBatch(fs: seq<UploadedFile>, id: int): (r: seq<UploadedFile>)
    ensures |r| <= |fs|
    ensures forall f :: f in r <==> f in fs && f.uploadBatchId == id
    ensures (forall k :: 0 <= k < |fs| ==> fs[k].uploadBatchId != id) ==> r == []
  {
    if |fs| == 0 then []
    else
      var init := FilesOfBatch(fs[..|fs| - 1], id);
      var last := fs[|fs| - 1];
      assert fs == fs[..|fs| - 1] + [last];
      if last.uploadBatchId == id then init + [last] else init
  }

  function PathsOf(fs: seq<UploadedFile>): (r: seq<string>)
    ensures |r| == |fs|
    ensures forall k :: 0 <= k < |fs| ==> r[k] == fs[k].filePath
  {
    seq(|fs|, k requires 0 <= k < |fs| => fs[k].filePath)
  }

  /** Largest batch id present, or 0 for an empty table. */
  function MaxBatchId(bs: seq<UploadBatch>): (m: nat)
    ensures forall b :: b in bs ==> b.id <= m
  {
    if |bs| == 0 then 0
    else
      var n := |bs| - 1;
      var rest := MaxBatchId(bs[..n]);
      assert forall b :: b in bs ==> b == bs[n] || b in bs[..n];
      if bs[n].id > rest then bs[n].id else rest
  }

  /** The id the identity column hands the next batch. */
  function NextBatchId(s: Store): (id: int)
    ensures 0 < id && id !in BatchIds(s)
  {
    MaxBatchId(s.batches) + 1
  }

  // ---------------------------------------------------------------------
  // The four operations of FileDbService
  // ---------------------------------------------------------------------

  /**
   * `CreateBatchAsync`: appends one batch carrying the freshly minted token
   * `newToken` and a newly assigned id; the file table is untouched.
   */
  function CreateBatch(s: Store, newToken: string): (r: (Store, UploadBatch))
    requires IsGuidN(newToken) && newToken !in Tokens(s)
    ensures r.0.batches == s.batches + [r.1] && r.0.files == s.files
    ensures r.1.token == newToken && r.1.token !in Tokens(s)
    ensures r.1.id !in BatchIds(s)
    ensures Tokens(r.0) == Tokens(s) + {newToken}
  {
    var b := UploadBatch(NextBatchId(s), newToken);
    var s' := Store(s.batches + [b], s.files);
    assert forall x :: x in s'.batches <==> x in s.batches || x == b;
    (s', b)
  }

  /**
   * `GetTokenByFilePathAsync`: the token of the batch owning the first
   * record whose `filePath` equals `path`; none when no record has that
   * path (or, in a store that breaks referential integrity, when the
   * record's batch is missing).
   */
  function GetTokenByFilePath(s: Store, path: string): (r: Option<string>)
    ensures r.Some? ==> r.value in Tokens(s)
    ensures r.Some? ==> exists f :: f in s.files && f.filePath == path
    ensures Valid(s) && (exists f :: f in s.files && f.filePath == path) ==> r.Some?
    // the token belongs to the batch that the first record with `path` points at
    ensures r.Some? ==>
      && FirstFileWithPath(s.files, path).Some?
      && exists b :: b in s.batches && b.token == r.value
           && b.id == s.files[FirstFileWithPath(s.files, path).value].uploadBatchId
  {
    match FirstFileWithPath(s.files, path)
    case None => None
    case Some(i) =>
      assert s.files[i] in s.files;
      match FirstBatchWithId(s.batches, s.files[i].uploadBatchId)
      case None => None
      case Some(j) =>
        assert s.batches[j] in s.batches;
        Some(s.batches[j].token)
  }

  /** `AddUploadedFilesAsync`: appends the records, in order. */
  function AddUploadedFiles(s: Store, recs: seq<UploadedFile>): (r: Store)
    ensures r.batches == s.batches
    ensures |r.files| == |s.files| + |recs|
    ensures r.files[..|s.files|] == s.files && r.files[|s.files|..] == recs
  {
    Store(s.batches, s.files + recs)
  }

  /**
   * `GetFilePathsByTokenAsync`: the `filePath` of every record attached to
   * the first batch carrying `token`, in table order; empty when no batch
   * has the token or the batch has no files.
   */
  function GetFilePathsByToken(s: Store, token: string): (r: seq<string>)
    ensures token !in Tokens(s) ==> r == []
    ensures forall p :: p in r ==> exists f :: f in s.files && f.filePath == p
    // the paths of the records pointing at the first batch with `token`, in table order
    ensures FirstBatchWithToken(s.batches, token).Some? ==>
      r == PathsOf(FilesOfBatch(s.files, s.batches[FirstBatchWithToken(s.batches, token).value].id))
  {
    match FirstBatchWithToken(s.batches, token)
    case None => []
    case Some(j) =>
      var fs := FilesOfBatch(s.files, s.batches[j].id);
      if |fs| == 0 then []
      else
        assert forall p :: p in PathsOf(fs) ==> exists k :: 0 <= k < |fs| && fs[k].filePath == p;
        PathsOf(fs)
  }

  // ---------------------------------------------------------------------
  // Properties
  // ---------------------------------------------------------------------

  lemma {:induction false} FilesOfBatchAppend(a: seq<UploadedFile>, b: seq<UploadedFile>, id: int)
    ensures FilesOfBatch(a + b, id) == FilesOfBatch(a, id) + FilesOfBatch(b, id)
    decreases |b|
  {
    if |b| == 0 {
      assert a + b == a;
    } else {
      var b' := b[..|b| - 1];
      assert (a + b)[..|a + b| - 1] == a + b';
      FilesOfBatchAppend(a, b', id);
    }
  }

  lemma {:induction false} FilesOfBatchAll(fs: seq<UploadedFile>, id: int)
    requires forall k :: 0 <= k < |fs| ==> fs[k].uploadBatchId == id
    ensures FilesOfBatch(fs, id) == fs
    decreases |fs|
  {
    if |fs| > 0 {
      var n := |fs| - 1;
      FilesOfBatchAll(fs[..n], id);
      assert FilesOfBatch(fs, id) == FilesOfBatch(fs[..n], id) + [fs[n]];
      assert fs == fs[..n] + [fs[n]];
    }
  }

  /** Records that all point elsewhere contribute nothing to batch `id`. */
  lemma NoFilesOfUnknownBatch(s: Store, id: int)
    requires Valid(s) && id !in BatchIds(s)
    ensures FilesOfBatch(s.files, id) == []
  {
    forall k | 0 <= k < |s.files| ensures s.files[k].uploadBatchId != id {
      assert s.files[k] in s.files;
    }
  }

  /** A batch appended with a new token and a new id is the first match for both. */
  lemma AppendedBatchIsFirstMatch(bs: seq<UploadBatch>, b: UploadBatch)
    requires forall x :: x in bs ==> x.token != b.token && x.id != b.id
    ensures FirstBatchWithToken(bs + [b], b.token) == Some(|bs|)
    ensures FirstBatchWithId(bs + [b], b.id) == Some(|bs|)
  {
    FirstWhereAppended(bs, b, TokenIs(b.token));
    FirstWhereAppended(bs, b, IdIs(b.id));
  }

  /**
   * A freshly created batch resolves to an empty path list, since no
   * existing record can point at the id it was given; the store stays
   * consistent and every path lookup keeps its answer.
   */
  lemma CreateBatchResolvesEmpty(s: Store, newToken: string, path: string)
    requires Valid(s) && IsGuidN(newToken) && newToken !in Tokens(s)
    ensures var (s', b) := CreateBatch(s, newToken);
      && Valid(s')
      && GetFilePathsByToken(s', newToken) == []
      && GetTokenByFilePath(s', path) == GetTokenByFilePath(s, path)
  {
    var (s', b) := CreateBatch(s, newToken);
    AppendedBatchIsFirstMatch(s.batches, b);
    NoFilesOfUnknownBatch(s, b.id);
    assert FilesOfBatch(s'.files, s'.batches[|s.batches|].id) == [];
    match FirstFileWithPath(s.files, path)
    case None =>
    case Some(i) =>
      assert s.files[i] in s.files;
      FirstWhereExtend(s.batches, [b], IdIs(s.files[i].uploadBatchId));
  }

  /**
   * Appending records never changes the answer for a path that already had
   * a record, nor the batch table or its tokens.
   */
  lemma AddUploadedFilesKeepsLookups(s: Store, recs: seq<UploadedFile>, path: string)
    requires exists f :: f in s.files && f.filePath == path
    ensures GetTokenByFilePath(AddUploadedFiles(s, recs), path) == GetTokenByFilePath(s, path)
    ensures Tokens(AddUploadedFiles(s, recs)) == Tokens(s)
  {
    FirstWhereExtend(s.files, recs, PathIs(path));
  }

  /**
   * Creating a batch and attaching records to it leaves every earlier
   * token's link alone: it resolves to the same paths as before.
   */
  lemma AttachKeepsEarlierLinks(s: Store, newToken: string, recs: seq<UploadedFile>, t: string)
    requires Valid(s) && IsGuidN(newToken) && newToken !in Tokens(s)
    requires forall k :: 0 <= k < |recs| ==> recs[k].uploadBatchId == NextBatchId(s)
    requires t in Tokens(s)
    ensures GetFilePathsByToken(AddUploadedFiles(CreateBatch(s, newToken).0, recs), t) == GetFilePathsByToken(s, t)
  {
    var (s1, b) := CreateBatch(s, newToken);
    var s2 := AddUploadedFiles(s1, recs);
    var x :| x in s.batches && x.token == t;
    assert FirstBatchWithToken(s.batches, t).Some?;
    FirstWhereExtend(s.batches, [b], TokenIs(t));
    var j := FirstBatchWithToken(s.batches, t).value;
    assert s2.batches[j] == s.batches[j] && s.batches[j] in s.batches;
    var id := s.batches[j].id;
    assert id in BatchIds(s) && id != NextBatchId(s);
    assert forall k :: 0 <= k < |recs| ==> recs[k].uploadBatchId != id;
    FilesOfBatchAppend(s.files, recs, id);
    assert FilesOfBatch(s2.files, id) == FilesOfBatch(s.files, id);
    assert FirstBatchWithToken(s2.batches, t) == Some(j);
    assert GetFilePathsByToken(s2, t) == PathsOf(FilesOfBatch(s2.files, id));
  }

  /** Records stamped with the new batch's id keep the store consistent. */
  lemma AttachKeepsValid(s: Store, newToken: string, recs: seq<UploadedFile>)
    requires Valid(s) && IsGuidN(newToken) && newToken !in Tokens(s)
    requires forall k :: 0 <= k < |recs| ==> recs[k].uploadBatchId == NextBatchId(s)
    ensures Valid(AddUploadedFiles(CreateBatch(s, newToken).0, recs))
  {
    var (s1, b) := CreateBatch(s, newToken);
    var s2 := AddUploadedFiles(s1, recs);
    assert BatchIds(s2) == BatchIds(s) + {b.id} by {
      assert forall x :: x in s2.batches <==> x in s.batches || x == b;
    }
    forall f | f in s2.files ensures f.uploadBatchId in BatchIds(s2) {
      if f !in s.files {
        var k :| 0 <= k < |s2.files| && s2.files[k] == f;
        assert s2.files[k] == recs[k - |s.files|];
      }
    }
  }

  /**
   * Creating a batch and attaching records with fresh, distinct paths keeps
   * both keys unique.
   */
  lemma AttachKeepsKeysUnique(s: Store, newToken: string, recs: seq<UploadedFile>)
    requires KeysUnique(s) && IsGuidN(newToken) && newToken !in Tokens(s)
    requires PathsUnique(recs)
    requires forall k, rec :: 0 <= k < |recs| && rec in s.files ==> rec.filePath != recs[k].filePath
    ensures KeysUnique(AddUploadedFiles(CreateBatch(s, newToken).0, recs))
  {
    var (s1, b) := CreateBatch(s, newToken);
    var s2 := AddUploadedFiles(s1, recs);
    forall i, j | 0 <= i < j < |s2.batches| ensures s2.batches[i].id != s2.batches[j].id {
      if j == |s.batches| {
        assert s2.batches[i] == s.batches[i] && s.batches[i] in s.batches;
      }
    }
    forall i, j | 0 <= i < j < |s2.files| ensures s2.files[i].filePath != s2.files[j].filePath {
      if j >= |s.files| {
        assert s2.files[j] == recs[j - |s.files|];
        if i < |s.files| {
          assert s2.files[i] == s.files[i] && s.files[i] in s.files;
        } else {
          assert s2.files[i] == recs[i - |s.files|];
        }
      }
    }
  }

  /**
   * With unique keys the lookup by path is determined: the record with the
   * path is the one found, and the token is that of the one batch with the
   * record's batch id, whatever order the tables are read in.
   */
  lemma UniqueKeysPinLookup(s: Store, k: nat, j: nat)
    requires KeysUnique(s)
    requires k < |s.files| && j < |s.batches| && s.batches[j].id == s.files[k].uploadBatchId
    ensures FirstFileWithPath(s.files, s.files[k].filePath) == Some(k)
    ensures GetTokenByFilePath(s, s.files[k].filePath) == Some(s.batches[j].token)
  {
    FirstWhereAt(s.files, PathIs(s.files[k].filePath), k);
    FirstWhereAt(s.batches, IdIs(s.batches[j].id), j);
  }

  /** Resolving the new batch's token yields exactly the attached records' paths, in order. */
  lemma AttachResolves(s: Store, newToken: string, recs: seq<UploadedFile>)
    requires Valid(s) && IsGuidN(newToken) && newToken !in Tokens(s)
    requires forall k :: 0 <= k < |recs| ==> recs[k].uploadBatchId == NextBatchId(s)
    ensures GetFilePathsByToken(AddUploadedFiles(CreateBatch(s, newToken).0, recs), newToken) == PathsOf(recs)
  {
    var (s1, b) := CreateBatch(s, newToken);
    var s2 := AddUploadedFiles(s1, recs);
    AppendedBatchIsFirstMatch(s.batches, b);
    assert s2.batches[|s.batches|] == b;
    NoFilesOfUnknownBatch(s, b.id);
    FilesOfBatchAppend(s.files, recs, b.id);
    FilesOfBatchAll(recs, b.id);
    assert FilesOfBatch(s2.files, b.id) == recs;
  }

  /** Looking up an attached record's path that had no earlier record yields the new token. */
  lemma AttachLookup(s: Store, newToken: string, recs: seq<UploadedFile>, k: nat)
    requires Valid(s) && IsGuidN(newToken) && newToken !in Tokens(s)
    requires forall j :: 0 <= j < |recs| ==> recs[j].uploadBatchId == NextBatchId(s)
    requires k < |recs| && forall f :: f in s.files ==> f.filePath != recs[k].filePath
    ensures GetTokenByFilePath(AddUploadedFiles(CreateBatch(s, newToken).0, recs), recs[k].filePath) == Some(newToken)
  {
    var (s1, b) := CreateBatch(s, newToken);
    var s2 := AddUploadedFiles(s1, recs);
    AppendedBatchIsFirstMatch(s.batches, b);
    assert s2.batches[|s.batches|] == b;
    var p := recs[k].filePath;
    assert s2.files[|s.files| + k] == recs[k];
    var i := FirstFileWithPath(s2.files, p).value;
    assert forall j :: 0 <= j < |s.files| ==> s2.files[j] == s.files[j] && s.files[j] in s.files;
    assert s2.files[i] == recs[i - |s.files|];
  }

  /**
   * The round trip of an upload: create a batch with token `newToken`, then
   * append records stamped with its id. The store stays consistent,
   * resolving `newToken` yields exactly the records' paths in order, and
   * looking up any of those paths that had no earlier record yields
   * `newToken`.
   */
  lemma AttachRoundTrip(s: Store, newToken: string, recs: seq<UploadedFile>)
    requires Valid(s) && IsGuidN(newToken) && newToken !in Tokens(s)
    requires forall k :: 0 <= k < |recs| ==> recs[k].uploadBatchId == NextBatchId(s)
    ensures var s2 := AddUploadedFiles(CreateBatch(s, newToken).0, recs);
      && Valid(s2)
      && GetFilePathsByToken(s2, newToken) == PathsOf(recs)
      && forall k :: 0 <= k < |recs| && (forall f :: f in s.files ==> f.filePath != recs[k].filePath)
           ==> GetTokenByFilePath(s2, recs[k].filePath) == Some(newToken)
  {
    AttachKeepsValid(s, newToken, recs);
    AttachResolves(s, newToken, recs);
    forall k | 0 <= k < |recs| && (forall f :: f in s.files ==> f.filePath != recs[k].filePath)
      ensures GetTokenByFilePath(AddUploadedFiles(CreateBatch(s, newToken).0, recs), recs[k].filePath) == Some(newToken)
    {
      AttachLookup(s, newToken, recs, k);
    }
  }
}

=== FILE: file_upload.dfy ===
/**
 * The upload batching and deduplication engine (`FileUploadService`).
 *
 * `SaveUploadedFiles` walks the submitted files in order. Each file is
 * rejected by admission, found by the dedup lookup (and then contributes
 * the token of the batch already holding it), found already present in
 * storage, or written. Records are only added after the walk, so a second
 * file with the same name in one request is caught by the storage check
 * and not by the dedup lookup. A three-way decision then picks the token
 * returned to the caller.
 */
module FileUpload {
  import opened Wrappers
  import opened PathText
  import opened FileDb

  /** A submitted multipart file: the client's file name and its length in bytes. */
  datatype FormFile = FormFile(fileName: string, length: nat)

  /** What one request sees: the database and the set of occupied storage paths. */
  datatype State = State(db: Store, storage: set<string>)

  /** The caller's user id, the configured size bound and the web root directory. */
  datatype Context = Context(userId: int, maxSize: int, webRoot: string)

  /** Where a submitted file ends up. */
  datatype Disposition =
    | Rejected               // null, empty or over the size bound
    | Duplicate(token: string) // a record already holds its path
    | Occupied               // its storage path is already taken
    | Written                // its bytes were stored

  /** The bookkeeping of the per-file walk. */
  datatype Scan = Scan(
    skipped: seq<string>,
    uploaded: seq<UploadedFile>,
    reuse: set<string>,        // the `existingTokens` hash set
    storage: set<string>)

  datatype UploadResult = UploadResult(token: string, skippedFiles: seq<string>)

  datatype Outcome = Outcome(result: UploadResult, state: State)

  // ---------------------------------------------------------------------
  // The per-file decision
  // ---------------------------------------------------------------------

  predicate Admitted(maxSize: int, f: Option<FormFile>)
  {
    f.Some? && f.value.length != 0 && f.value.length <= maxSize
  }

  /** The name a rejected file is reported under: its raw name, or "Unknown" for a null entry. */
  function RawName(f: Option<FormFile>): (r: string)
  {
    if f.Some? then f.value.fileName else "Unknown"
  }

  function KeyOf(ctx: Context, f: FormFile): (r: string)
  {
    DedupKey(ctx.userId, BaseName(f.fileName))
  }

  function StorageOf(ctx: Context, f: FormFile): (r: string)
  {
    StoragePath(ctx.webRoot, ctx.userId, BaseName(f.fileName))
  }

  /** The dedup probe: a found token counts only when it is not empty. */
  function ReuseToken(db: Store, ctx: Context, f: FormFile): (r: Option<string>)
    ensures r.Some? ==> r.value != "" && r.value in Tokens(db)
    ensures Valid(db) ==> (r.None? <==> forall rec :: rec in db.files ==> rec.filePath != KeyOf(ctx, f))
    // the token is that of the batch the first record with the key points at
    ensures r.Some? ==>
      && FirstFileWithPath(db.files, KeyOf(ctx, f)).Some?
      && exists b :: b in db.batches && b.token == r.value
           && b.id == db.files[FirstFileWithPath(db.files, KeyOf(ctx, f)).value].uploadBatchId
  {
    match GetTokenByFilePath(db, KeyOf(ctx, f))
    case Some(t) => if t != "" then Some(t) else None
    case None => None
  }

  /** The disposition of `f` when `occupied` is the set of taken storage paths. */
  function Classify(db: Store, ctx: Context, occupied: set<string>, f: Option<FormFile>): (d: Disposition)
    ensures d == Rejected <==> !Admitted(ctx.maxSize, f)
    ensures d.Duplicate? <==> Admitted(ctx.maxSize, f) && ReuseToken(db, ctx, f.value).Some?
    ensures d.Duplicate? ==> d.token == ReuseToken(db, ctx, f.value).value
    ensures d == Occupied <==>
      Admitted(ctx.maxSize, f) && ReuseToken(db, ctx, f.value).None? && StorageOf(ctx, f.value) in occupied
    ensures d == Written <==>
      Admitted(ctx.maxSize, f) && ReuseToken(db, ctx, f.value).None? && StorageOf(ctx, f.value) !in occupied
  {
    if !Admitted(ctx.maxSize, f) then Rejected
    else match ReuseToken(db, ctx, f.value)
      case Some(t) => Duplicate(t)
      case None => if StorageOf(ctx, f.value) in occupied then Occupied else Written
  }

  /** The name a skipped file is reported under. */
  function SkipName(f: Option<FormFile>, d: Disposition): (r: string)
  {
    if d == Rejected then RawName(f) else BaseName(RawName(f))
  }

  /** The record prepared for a written file; its batch id is set later. */
  function Record(ctx: Context, f: FormFile): (r: UploadedFile)
  {
    UploadedFile(ctx.userId, KeyOf(ctx, f), StorageOf(ctx, f), 0)
  }

  /**
   * A written file's record belongs to the caller, has no batch yet, and
   * both of its paths end in the uploaded file's name.
   */
  lemma RecordNamesFile(ctx: Context, f: FormFile)
    ensures var r := Record(ctx, f);
      && r.userId == ctx.userId && r.uploadBatchId == 0
      && BaseName(r.filePath) == BaseName(f.fileName)
      && (0 < |BaseName(f.fileName)| ==> BaseName(r.storagePath) == BaseName(f.fileName))
  {
    DedupKeyNamesFile(ctx.userId, BaseName(f.fileName));
    StoragePathEndsInName(ctx.webRoot, ctx.userId, BaseName(f.fileName));
  }

  /** One iteration of the walk. */
  function Step(db: Store, ctx: Context, acc: Scan, f: Option<FormFile>): (r: Scan)
  {
    var d := Classify(db, ctx, acc.storage, f);
    match d
    case Written =>
      acc.(uploaded := acc.uploaded + [Record(ctx, f.value)],
           storage := acc.storage + {StorageOf(ctx, f.value)})
    case Duplicate(t) =>
      acc.(skipped := acc.skipped + [SkipName(f, d)], reuse := acc.reuse + {t})
    case _ =>
      acc.(skipped := acc.skipped + [SkipName(f, d)])
  }

  /**
   * One step only adds: the claimed paths and the reuse tokens grow, and
   * the file lands in exactly one of the two lists, after what is already
   * there.
   */
  lemma StepExtends(db: Store, ctx: Context, acc: Scan, f: Option<FormFile>)
    ensures var r := Step(db, ctx, acc, f);
      && acc.storage <= r.storage && acc.reuse <= r.reuse
      && acc.uploaded <= r.uploaded && acc.skipped <= r.skipped
      && |r.uploaded| + |r.skipped| == |acc.uploaded| + |acc.skipped| + 1
  {
  }

  /** The whole walk over `files`, starting from the storage contents `storage0`. */
  function ScanFiles(db: Store, ctx: Context, storage0: set<string>, files: seq<Option<FormFile>>): (r: Scan)
    ensures storage0 <= r.storage
    ensures |r.uploaded| + |r.skipped| == |files|
  {
    if |files| == 0 then Scan([], [], {}, storage0)
    else
      var acc := ScanFiles(db, ctx, storage0, files[..|files| - 1]);
      StepExtends(db, ctx, acc, files[|files| - 1]);
      Step(db, ctx, acc, files[|files| - 1])
  }

  // ---------------------------------------------------------------------
  // The upload operation
  // ---------------------------------------------------------------------

  /** The records with their batch id set to `id`, in order. */
  function AssignBatch(recs: seq<UploadedFile>, id: int): (r: seq<UploadedFile>)
    ensures |r| == |recs|
    ensures forall k :: 0 <= k < |recs| ==> r[k] == recs[k].(uploadBatchId := id)
  {
    seq(|recs|, k requires 0 <= k < |recs| => recs[k].(uploadBatchId := id))
  }

  /** The one element of a singleton set (`existingTokens.First()`). */
  function SoleElement(s: set<string>): (t: string)
    requires |s| == 1
    ensures s == {t}
  {
    var t :| t in s;
    assert s == {t} by {
      var rest := s - {t};
      assert s == rest + {t};
      assert |rest| == 0;
    }
    t
  }

  /**
   * `SaveUploadedFiles`: the walk, then the three-way choice of the token.
   * `newToken` is the token a batch created by this call receives.
   */
  function SaveUploadedFiles(st: State, ctx: Context, files: seq<Option<FormFile>>, newToken: string): (r: Outcome)
    requires IsGuidN(newToken) && newToken !in Tokens(st.db)
    ensures var sc := ScanFiles(st.db, ctx, st.storage, files);
      && r.result.skippedFiles == sc.skipped
      && r.state.storage == sc.storage
    // files were written: one new batch, holding all of them
    ensures var sc := ScanFiles(st.db, ctx, st.storage, files);
      |sc.uploaded| > 0 ==>
        && r.result.token == newToken
        && r.state.db.batches == st.db.batches + [UploadBatch(NextBatchId(st.db), newToken)]
        && r.state.db.files == st.db.files + AssignBatch(sc.uploaded, NextBatchId(st.db))
    // nothing written, one distinct reuse token: that token, and no change
    ensures var sc := ScanFiles(st.db, ctx, st.storage, files);
      |sc.uploaded| == 0 && |sc.reuse| == 1 ==>
        r.state.db == st.db && sc.reuse == {r.result.token}
    // nothing written, zero or several reuse tokens: one new empty batch
    ensures var sc := ScanFiles(st.db, ctx, st.storage, files);
      |sc.uploaded| == 0 && |sc.reuse| != 1 ==>
        && r.result.token == newToken && r.result.token !in sc.reuse
        && r.state.db.batches == st.db.batches + [UploadBatch(NextBatchId(st.db), newToken)]
        && r.state.db.files == st.db.files
  {
    var sc := ScanFiles(st.db, ctx, st.storage, files);
    ScanReuseTokensExist(st.db, ctx, st.storage, files);
    if |sc.uploaded| == 0 then
      if |sc.reuse| == 1 then
        Outcome(UploadResult(SoleElement(sc.reuse), sc.skipped), State(st.db, sc.storage))
      else
        var (db1, batch) := CreateBatch(st.db, newToken);
        Outcome(UploadResult(batch.token, sc.skipped), State(db1, sc.storage))
    else
      var (db1, batch) := CreateBatch(st.db, newToken);
      var db2 := AddUploadedFiles(db1, AssignBatch(sc.uploaded, batch.id));
      Outcome(UploadResult(batch.token, sc.skipped), State(db2, sc.storage))
  }

  /** `GetSharedFileUrls`: every stored path of the batch, prefixed with the base URL. */
  function GetSharedFileUrls(db: Store, token: string, baseUrl: string): (urls: seq<string>)
    ensures var paths := GetFilePathsByToken(db, token);
      |urls| == |paths| && forall k :: 0 <= k < |paths| ==> urls[k] == baseUrl + "/" + paths[k]
  {
    var paths := GetFilePathsByToken(db, token);
    seq(|paths|, k requires 0 <= k < |paths| => baseUrl + "/" + paths[k])
  }

  // ---------------------------------------------------------------------
  // The walk, file by file
  // ---------------------------------------------------------------------

  /** Every reuse token is the non-empty token of a stored batch. */
  lemma {:induction false} ScanReuseTokensExist(db: Store, ctx: Context, storage0: set<string>, files: seq<Option<FormFile>>)
    ensures forall t :: t in ScanFiles(db, ctx, storage0, files).reuse ==> t in Tokens(db) && t != ""
    decreases |files|
  {
    if |files| > 0 {
      ScanReuseTokensExist(db, ctx, storage0, files[..|files| - 1]);
    }
  }

  // ---------------------------------------------------------------------
  // An independent account of each file's fate
  // ---------------------------------------------------------------------

  /** `f` passes admission and misses the dedup lookup, so it reaches the storage check. */
  predicate ReachesStorage(db: Store, ctx: Context, f: Option<FormFile>)
  {
    Admitted(ctx.maxSize, f) && ReuseToken(db, ctx, f.value).None?
  }

  /** The storage paths claimed by the files that reach the storage check. */
  function ClaimedPaths(db: Store, ctx: Context, files: seq<Option<FormFile>>): (r: set<string>)
  {
    set f | f in files && ReachesStorage(db, ctx, f) :: StorageOf(ctx, f.value)
  }

  /**
   * The fate of `f` after the files `earlier` of the same request, decided
   * without the walk: its storage path counts as taken when it was taken
   * before the request or is claimed by an earlier file that reached the
   * storage check (written then, or itself found taken).
   */
  function Fate(db: Store, ctx: Context, storage0: set<string>, earlier: seq<Option<FormFile>>, f: Option<FormFile>): (r: Disposition)
  {
    Classify(db, ctx, storage0 + ClaimedPaths(db, ctx, earlier), f)
  }

  /** `g` applied to every element together with the elements before it. */
  function MapWithPrefix<X, D>(g: (seq<X>, X) -> D, xs: seq<X>): (ds: seq<D>)
    ensures |ds| == |xs|
    decreases |xs|
  {
    if |xs| == 0 then []
    else
      var n := |xs| - 1;
      MapWithPrefix(g, xs[..n]) + [g(xs[..n], xs[n])]
  }

  lemma {:induction false} MapWithPrefixAt<X, D>(g: (seq<X>, X) -> D, xs: seq<X>, k: nat)
    requires k < |xs|
    ensures MapWithPrefix(g, xs)[k] == g(xs[..k], xs[k])
    decreases |xs|
  {
    var n := |xs| - 1;
    if k < n {
      MapWithPrefixAt(g, xs[..n], k);
      assert xs[..n][..k] == xs[..k];
    }
  }

  function FateOf(db: Store, ctx: Context, storage0: set<string>): (r: (seq<Option<FormFile>>, Option<FormFile>) -> Disposition)
  {
    (earlier, f) => Fate(db, ctx, storage0, earlier, f)
  }

  /** The fates of all files in input order, each decided against the files before it. */
  function Fates(db: Store, ctx: Context, storage0: set<string>, files: seq<Option<FormFile>>): (ds: seq<Disposition>)
    ensures |ds| == |files|
  {
    MapWithPrefix(FateOf(db, ctx, storage0), files)
  }

  /** The names of the files whose fate is not `Written`, in input order. */
  function SkippedOf(files: seq<Option<FormFile>>, ds: seq<Disposition>): (r: seq<string>)
    requires |ds| == |files|
  {
    if |files| == 0 then []
    else
      var n := |files| - 1;
      SkippedOf(files[..n], ds[..n]) + (if ds[n] == Written then [] else [SkipName(files[n], ds[n])])
  }

  /** The records of the files whose fate is `Written`, in input order. */
  function WrittenOf(ctx: Context, files: seq<Option<FormFile>>, ds: seq<Disposition>): (r: seq<UploadedFile>)
    requires |ds| == |files|
  {
    if |files| == 0 then []
    else
      var n := |files| - 1;
      WrittenOf(ctx, files[..n], ds[..n]) + (if ds[n] == Written && files[n].Some? then [Record(ctx, files[n].value)] else [])
  }

  /** The tokens of the files whose fate is `Duplicate`. */
  function ReusedOf(ds: seq<Disposition>): (r: set<string>)
  {
    set k | 0 <= k < |ds| && ds[k].Duplicate? :: ds[k].token
  }

  /** The fate at position `k` is the one decided against the files before it. */
  lemma FatesAt(db: Store, ctx: Context, storage0: set<string>, files: seq<Option<FormFile>>, k: nat)
    requires k < |files|
    ensures Fates(db, ctx, storage0, files)[k] == Fate(db, ctx, storage0, files[..k], files[k])
  {
    MapWithPrefixAt(FateOf(db, ctx, storage0), files, k);
  }

  lemma ClaimedPathsSnoc(db: Store, ctx: Context, storage0: set<string>, files: seq<Option<FormFile>>)
    requires |files| > 0
    ensures var n := |files| - 1;
      storage0 + ClaimedPaths(db, ctx, files) ==
        storage0 + ClaimedPaths(db, ctx, files[..n])
        + (if ReachesStorage(db, ctx, files[n]) then {StorageOf(ctx, files[n].value)} else {})
  {
    var n := |files| - 1;
    assert files == files[..n] + [files[n]];
    assert forall f :: f in files <==> f in files[..n] || f == files[n];
  }

  lemma ReusedOfSnoc(ds: seq<Disposition>)
    requires |ds| > 0
    ensures var n := |ds| - 1;
      ReusedOf(ds) == ReusedOf(ds[..n]) + (if ds[n].Duplicate? then {ds[n].token} else {})
  {
    var n := |ds| - 1;
    var ds' := ds[..n];
    forall t ensures t in ReusedOf(ds) <==> t in ReusedOf(ds') || (ds[n].Duplicate? && t == ds[n].token) {
      if t in ReusedOf(ds) {
        var k :| 0 <= k < |ds| && ds[k].Duplicate? && ds[k].token == t;
        if k < n { assert ds'[k] == ds[k]; }
      }
      if t in ReusedOf(ds') {
        var k :| 0 <= k < |ds'| && ds'[k].Duplicate? && ds'[k].token == t;
        assert ds[k] == ds'[k];
      }
    }
  }

  /** One more disposition: how the three projections of the account grow. */
  lemma AccountSnoc(ctx: Context, files: seq<Option<FormFile>>, dsPre: seq<Disposition>, d: Disposition)
    requires |files| > 0 && |dsPre| == |files| - 1
    ensures var n := |files| - 1; var ds := dsPre + [d];
      && SkippedOf(files, ds) == SkippedOf(files[..n], dsPre) + (if d == Written then [] else [SkipName(files[n], d)])
      && WrittenOf(ctx, files, ds)
           == WrittenOf(ctx, files[..n], dsPre) + (if d == Written && files[n].Some? then [Record(ctx, files[n].value)] else [])
      && ReusedOf(ds) == ReusedOf(dsPre) + (if d.Duplicate? then {d.token} else {})
  {
    var ds := dsPre + [d];
    assert ds[..|dsPre|] == dsPre;
    ReusedOfSnoc(ds);
  }

  /** One step of the walk, spelled out against the claimed storage paths. */
  lemma StepAgainstClaims(db: Store, ctx: Context, sc: Scan, f: Option<FormFile>, claimed: set<string>, d: Disposition)
    requires sc.storage == claimed && d == Classify(db, ctx, claimed, f)
    ensures Step(db, ctx, sc, f) == Scan(
        sc.skipped + (if d == Written then [] else [SkipName(f, d)]),
        sc.uploaded + (if d == Written && f.Some? then [Record(ctx, f.value)] else []),
        sc.reuse + (if d.Duplicate? then {d.token} else {}),
        claimed + (if ReachesStorage(db, ctx, f) then {StorageOf(ctx, f.value)} else {}))
  {
    var r := Step(db, ctx, sc, f);
    assert sc.skipped + [] == sc.skipped && sc.uploaded + [] == sc.uploaded;
    assert sc.reuse + {} == sc.reuse && claimed + {} == claimed;
    match d
    case Written =>
      assert ReachesStorage(db, ctx, f);
      assert r == Scan(sc.skipped, sc.uploaded + [Record(ctx, f.value)], sc.reuse, claimed + {StorageOf(ctx, f.value)});
    case Duplicate(t) =>
      assert !ReachesStorage(db, ctx, f);
      assert r == Scan(sc.skipped + [SkipName(f, d)], sc.uploaded, sc.reuse + {t}, claimed);
    case Occupied =>
      assert ReachesStorage(db, ctx, f);
      assert claimed + {StorageOf(ctx, f.value)} == claimed;
      assert r == Scan(sc.skipped + [SkipName(f, d)], sc.uploaded, sc.reuse, claimed);
    case Rejected =>
      assert !ReachesStorage(db, ctx, f);
      assert r == Scan(sc.skipped + [SkipName(f, d)], sc.uploaded, sc.reuse, claimed);
  }

  /**
   * The walk agrees with the independent account: the skipped names, the
   * written records and the reuse tokens are those of the files whose fate
   * says so, in input order, and the storage afterwards holds exactly the
   * paths taken before plus those claimed by the request.
   */
  lemma {:induction false} ScanFollowsFates(db: Store, ctx: Context, storage0: set<string>, files: seq<Option<FormFile>>)
    ensures var ds := Fates(db, ctx, storage0, files);
      ScanFiles(db, ctx, storage0, files)
        == Scan(SkippedOf(files, ds), WrittenOf(ctx, files, ds), ReusedOf(ds),
                storage0 + ClaimedPaths(db, ctx, files))
    decreases |files|
  {
    if |files| == 0 {
      assert ReusedOf(Fates(db, ctx, storage0, files)) == {};
    } else {
      var n := |files| - 1;
      var pre, f := files[..n], files[n];
      ScanFollowsFates(db, ctx, storage0, pre);
      var dsPre := Fates(db, ctx, storage0, pre);
      var claimed := storage0 + ClaimedPaths(db, ctx, pre);
      var d := Fate(db, ctx, storage0, pre, f);
      assert Fates(db, ctx, storage0, files) == dsPre + [d] by {
        assert Fates(db, ctx, storage0, files) == MapWithPrefix(FateOf(db, ctx, storage0), files);
      }
      AccountSnoc(ctx, files, dsPre, d);
      ClaimedPathsSnoc(db, ctx, storage0, files);
      var sc := ScanFiles(db, ctx, storage0, pre);
      StepAgainstClaims(db, ctx, sc, f, claimed, d);
      assert ScanFiles(db, ctx, storage0, files) == Step(db, ctx, sc, f);
    }
  }

  /**
   * A later file whose storage path equals that of an earlier file of the
   * same request that reached the storage check is skipped as `Occupied`,
   * so it contributes no reuse token, unless the dedup lookup found it.
   */
  lemma LaterSameNameIsOccupied(db: Store, ctx: Context, storage0: set<string>, files: seq<Option<FormFile>>, i: nat, j: nat)
    requires i < j < |files|
    requires ReachesStorage(db, ctx, files[i]) && ReachesStorage(db, ctx, files[j])
    requires StorageOf(ctx, files[i].value) == StorageOf(ctx, files[j].value)
    ensures Fates(db, ctx, storage0, files)[j] == Occupied
  {
    FatesAt(db, ctx, storage0, files, j);
    assert files[i] == files[..j][i];
  }

  /**
   * Files that fail admission are only reported: when no file passes, the
   * walk writes nothing, collects no token, leaves storage alone and
   * reports every file under its raw name ("Unknown" for a null entry).
   */
  lemma {:induction false} RejectedFilesTouchNothing(db: Store, ctx: Context, storage0: set<string>, files: seq<Option<FormFile>>)
    requires forall k :: 0 <= k < |files| ==> !Admitted(ctx.maxSize, files[k])
    ensures var sc := ScanFiles(db, ctx, storage0, files);
      && sc.uploaded == [] && sc.reuse == {} && sc.storage == storage0
      && |sc.skipped| == |files|
      && forall k :: 0 <= k < |files| ==> sc.skipped[k] == RawName(files[k])
    decreases |files|
  {
    if |files| > 0 {
      RejectedFilesTouchNothing(db, ctx, storage0, files[..|files| - 1]);
    }
  }

  /**
   * The storage bookkeeping the walk keeps: the claimed set only grows from
   * `storage0`, and the written records hold distinct paths, each claimed
   * during the walk and free before it.
   */
  predicate FreshWrites(storage0: set<string>, up: seq<UploadedFile>, storage: set<string>)
  {
    && storage0 <= storage
    && (forall k :: 0 <= k < |up| ==> up[k].storagePath !in storage0 && up[k].storagePath in storage)
    && (forall k, l :: 0 <= k < l < |up| ==> up[k].storagePath != up[l].storagePath)
  }

  /** Writing a record to a path not yet claimed keeps the bookkeeping. */
  lemma FreshWritesGrow(storage0: set<string>, up: seq<UploadedFile>, storage: set<string>, rec: UploadedFile)
    requires FreshWrites(storage0, up, storage) && rec.storagePath !in storage
    ensures FreshWrites(storage0, up + [rec], storage + {rec.storagePath})
  {
  }

  /** What one step does to the written records and the claimed paths. */
  lemma StepWrites(db: Store, ctx: Context, sc: Scan, f: Option<FormFile>)
    ensures var sc' := Step(db, ctx, sc, f);
      if ReachesStorage(db, ctx, f) && StorageOf(ctx, f.value) !in sc.storage then
        && sc'.uploaded == sc.uploaded + [Record(ctx, f.value)]
        && sc'.storage == sc.storage + {Record(ctx, f.value).storagePath}
        && Record(ctx, f.value).storagePath == StorageOf(ctx, f.value)
      else sc'.uploaded == sc.uploaded && sc'.storage == sc.storage
  {
  }

  /** One step keeps the storage bookkeeping. */
  lemma StepKeepsFreshWrites(db: Store, ctx: Context, storage0: set<string>, sc: Scan, f: Option<FormFile>)
    requires FreshWrites(storage0, sc.uploaded, sc.storage)
    ensures var sc' := Step(db, ctx, sc, f); FreshWrites(storage0, sc'.uploaded, sc'.storage)
  {
    StepWrites(db, ctx, sc, f);
    if ReachesStorage(db, ctx, f) && StorageOf(ctx, f.value) !in sc.storage {
      FreshWritesGrow(storage0, sc.uploaded, sc.storage, Record(ctx, f.value));
    }
  }

  /** The walk keeps its storage bookkeeping. */
  lemma {:induction false} ScanKeepsFreshWrites(db: Store, ctx: Context, storage0: set<string>, files: seq<Option<FormFile>>)
    ensures var sc := ScanFiles(db, ctx, storage0, files); FreshWrites(storage0, sc.uploaded, sc.storage)
    decreases |files|
  {
    if |files| > 0 {
      var n := |files| - 1;
      ScanKeepsFreshWrites(db, ctx, storage0, files[..n]);
      StepKeepsFreshWrites(db, ctx, storage0, ScanFiles(db, ctx, storage0, files[..n]), files[n]);
    }
  }

  /** A written record that is the record of a submitted file reaching the storage check. */
  predicate RecordOfSubmitted(db: Store, ctx: Context, files: seq<Option<FormFile>>, rec: UploadedFile)
  {
    exists f :: f in files && ReachesStorage(db, ctx, f) && rec == Record(ctx, f.value)
  }

  /** Every record in `ups` is the record of a submitted file. */
  predicate AllOfSubmitted(db: Store, ctx: Context, files: seq<Option<FormFile>>, ups: seq<UploadedFile>)
  {
    forall k :: 0 <= k < |ups| ==> RecordOfSubmitted(db, ctx, files, ups[k])
  }

  /** One step keeps every written record traceable to a submitted file. */
  lemma StepRecordsSubmittedFiles(db: Store, ctx: Context, sc: Scan, files: seq<Option<FormFile>>)
    requires |files| > 0
    requires AllOfSubmitted(db, ctx, files[..|files| - 1], sc.uploaded)
    ensures AllOfSubmitted(db, ctx, files, Step(db, ctx, sc, files[|files| - 1]).uploaded)
  {
    var n := |files| - 1;
    var f := files[n];
    var sc' := Step(db, ctx, sc, f);
    StepWrites(db, ctx, sc, f);
    forall k | 0 <= k < |sc'.uploaded| ensures RecordOfSubmitted(db, ctx, files, sc'.uploaded[k]) {
      if k < |sc.uploaded| {
        var g :| g in files[..n] && ReachesStorage(db, ctx, g) && sc.uploaded[k] == Record(ctx, g.value);
        assert sc'.uploaded[k] == sc.uploaded[k];
        assert g in files;
      } else {
        assert sc'.uploaded[k] == Record(ctx, f.value);
      }
    }
  }

  /** Every record the walk writes is the record of a submitted file that reached the storage check. */
  lemma {:induction false} ScanRecordsSubmittedFiles(db: Store, ctx: Context, storage0: set<string>, files: seq<Option<FormFile>>)
    ensures AllOfSubmitted(db, ctx, files, ScanFiles(db, ctx, storage0, files).uploaded)
    decreases |files|
  {
    if |files| > 0 {
      var n := |files| - 1;
      var pre := files[..n];
      var sc := ScanFiles(db, ctx, storage0, pre);
      ScanRecordsSubmittedFiles(db, ctx, storage0, pre);
      StepRecordsSubmittedFiles(db, ctx, sc, files);
      assert ScanFiles(db, ctx, storage0, files) == Step(db, ctx, sc, files[n]);
    }
  }

  /**
   * What the walk writes: each record belongs to the caller, is keyed by
   * its dedup key, missed the dedup lookup, and takes a storage path that
   * was free before the request and is distinct from every other record's.
   */
  lemma {:induction false} ScanWritesFreshPaths(db: Store, ctx: Context, storage0: set<string>, files: seq<Option<FormFile>>)
    ensures forall k :: 0 <= k < |ScanFiles(db, ctx, storage0, files).uploaded| ==>
      var rec := ScanFiles(db, ctx, storage0, files).uploaded[k];
      && rec.userId == ctx.userId
      && rec.uploadBatchId == 0
      && rec.storagePath !in storage0
      && rec.storagePath in ScanFiles(db, ctx, storage0, files).storage
      && RecordOfSubmitted(db, ctx, files, rec)
    ensures var sc := ScanFiles(db, ctx, storage0, files);
      && (forall k, l :: 0 <= k < l < |sc.uploaded| ==> sc.uploaded[k].storagePath != sc.uploaded[l].storagePath)
      && storage0 <= sc.storage
  {
    var sc := ScanFiles(db, ctx, storage0, files);
    ScanKeepsFreshWrites(db, ctx, storage0, files);
    ScanRecordsSubmittedFiles(db, ctx, storage0, files);
    forall k | 0 <= k < |sc.uploaded|
      ensures sc.uploaded[k].userId == ctx.userId && sc.uploaded[k].uploadBatchId == 0
    {
      assert RecordOfSubmitted(db, ctx, files, sc.uploaded[k]);
      var f :| f in files && ReachesStorage(db, ctx, f) && sc.uploaded[k] == Record(ctx, f.value);
    }
  }

  // ---------------------------------------------------------------------
  // Whole requests
  // ---------------------------------------------------------------------

  /** The records the walk prepared never had a record in the store before. */
  lemma {:induction false} UploadedPathsWereUnrecorded(st: State, ctx: Context, files: seq<Option<FormFile>>)
    requires Valid(st.db)
    ensures forall k, rec :: 0 <= k < |ScanFiles(st.db, ctx, st.storage, files).uploaded| && rec in st.db.files ==>
      rec.filePath != ScanFiles(st.db, ctx, st.storage, files).uploaded[k].filePath
  {
    var sc := ScanFiles(st.db, ctx, st.storage, files);
    ScanWritesFreshPaths(st.db, ctx, st.storage, files);
    forall k, rec | 0 <= k < |sc.uploaded| && rec in st.db.files
      ensures rec.filePath != sc.uploaded[k].filePath
    {
      assert RecordOfSubmitted(st.db, ctx, files, sc.uploaded[k]);
      var f :| f in files && ReachesStorage(st.db, ctx, f) && sc.uploaded[k] == Record(ctx, f.value);
      assert ReuseToken(st.db, ctx, f.value).None?;
    }
  }

  /**
   * When files were written, the returned token is the new batch's, it
   * resolves to exactly the written files' paths in submission order, and
   * looking any of them up afterwards yields that token.
   */
  lemma UploadRoundTrip(st: State, ctx: Context, files: seq<Option<FormFile>>, newToken: string)
    requires Valid(st.db) && IsGuidN(newToken) && newToken !in Tokens(st.db)
    requires |ScanFiles(st.db, ctx, st.storage, files).uploaded| > 0
    ensures var r := SaveUploadedFiles(st, ctx, files, newToken);
      var sc := ScanFiles(st.db, ctx, st.storage, files);
      && Valid(r.state.db)
      && GetFilePathsByToken(r.state.db, r.result.token) == PathsOf(sc.uploaded)
      && forall k :: 0 <= k < |sc.uploaded| ==>
           GetTokenByFilePath(r.state.db, sc.uploaded[k].filePath) == Some(r.result.token)
  {
    var sc := ScanFiles(st.db, ctx, st.storage, files);
    var r := SaveUploadedFiles(st, ctx, files, newToken);
    UploadedPathsWereUnrecorded(st, ctx, files);
    AttachUploads(st.db, newToken, sc.uploaded);
    assert r.state.db == AddUploadedFiles(CreateBatch(st.db, newToken).0, AssignBatch(sc.uploaded, NextBatchId(st.db)));
  }

  /**
   * Storing records whose paths had no record yet under a fresh batch:
   * the token resolves to exactly their paths, and each path to the token.
   */
  lemma AttachUploads(db: Store, newToken: string, ups: seq<UploadedFile>)
    requires Valid(db) && IsGuidN(newToken) && newToken !in Tokens(db)
    requires forall k, rec :: 0 <= k < |ups| && rec in db.files ==> rec.filePath != ups[k].filePath
    ensures var db2 := AddUploadedFiles(CreateBatch(db, newToken).0, AssignBatch(ups, NextBatchId(db)));
      && Valid(db2)
      && GetFilePathsByToken(db2, newToken) == PathsOf(ups)
      && forall k :: 0 <= k < |ups| ==> GetTokenByFilePath(db2, ups[k].filePath) == Some(newToken)
  {
    var recs := AssignBatch(ups, NextBatchId(db));
    AttachRoundTrip(db, newToken, recs);
    assert PathsOf(recs) == PathsOf(ups);
    forall k | 0 <= k < |ups|
      ensures GetTokenByFilePath(AddUploadedFiles(CreateBatch(db, newToken).0, recs), ups[k].filePath) == Some(newToken)
    {
      assert recs[k].filePath == ups[k].filePath;
    }
  }

  /**
   * Every request yields a token that names a stored batch afterwards, and
   * the store stays consistent. When nothing was written and the reuse
   * tokens were not a single one, the new batch resolves to nothing.
   */
  lemma UploadTokenIsResolvable(st: State, ctx: Context, files: seq<Option<FormFile>>, newToken: string)
    requires Valid(st.db) && IsGuidN(newToken) && newToken !in Tokens(st.db)
    ensures var r := SaveUploadedFiles(st, ctx, files, newToken);
      var sc := ScanFiles(st.db, ctx, st.storage, files);
      && Valid(r.state.db)
      && r.result.token in Tokens(r.state.db)
      && (|sc.uploaded| == 0 && |sc.reuse| != 1 ==> GetFilePathsByToken(r.state.db, r.result.token) == [])
  {
    var sc := ScanFiles(st.db, ctx, st.storage, files);
    var r := SaveUploadedFiles(st, ctx, files, newToken);
    ScanReuseTokensExist(st.db, ctx, st.storage, files);
    if |sc.uploaded| > 0 {
      UploadRoundTrip(st, ctx, files, newToken);
      assert Tokens(r.state.db) == Tokens(CreateBatch(st.db, newToken).0);
    } else if |sc.reuse| != 1 {
      CreateBatchResolvesEmpty(st.db, newToken, "");
    }
  }

  /** Equal dedup keys mean the same storage path: both come from the caller and the file name. */
  lemma KeyDeterminesStorage(ctx: Context, f: FormFile, g: FormFile)
    ensures KeyOf(ctx, f) == KeyOf(ctx, g) ==> StorageOf(ctx, f) == StorageOf(ctx, g)
  {
    if KeyOf(ctx, f) == KeyOf(ctx, g) {
      DedupKeyInjective(ctx.userId, BaseName(f.fileName), ctx.userId, BaseName(g.fileName));
    }
  }

  /** The records one walk writes have distinct logical paths. */
  lemma ScanWritesUniquePaths(db: Store, ctx: Context, storage0: set<string>, files: seq<Option<FormFile>>)
    ensures PathsUnique(ScanFiles(db, ctx, storage0, files).uploaded)
  {
    var up := ScanFiles(db, ctx, storage0, files).uploaded;
    ScanWritesFreshPaths(db, ctx, storage0, files);
    forall i, j | 0 <= i < j < |up| ensures up[i].filePath != up[j].filePath {
      assert RecordOfSubmitted(db, ctx, files, up[i]);
      assert RecordOfSubmitted(db, ctx, files, up[j]);
      var f :| f in files && ReachesStorage(db, ctx, f) && up[i] == Record(ctx, f.value);
      var g :| g in files && ReachesStorage(db, ctx, g) && up[j] == Record(ctx, g.value);
      KeyDeterminesStorage(ctx, f.value, g.value);
    }
  }

  /**
   * Uploads keep the keys of the data model unique: the new batch gets a
   * new id, and a written file's logical path had no record before and is
   * not written twice in one request.
   */
  lemma UploadKeepsKeysUnique(st: State, ctx: Context, files: seq<Option<FormFile>>, newToken: string)
    requires Valid(st.db) && KeysUnique(st.db) && IsGuidN(newToken) && newToken !in Tokens(st.db)
    ensures KeysUnique(SaveUploadedFiles(st, ctx, files, newToken).state.db)
  {
    var sc := ScanFiles(st.db, ctx, st.storage, files);
    var db := SaveUploadedFiles(st, ctx, files, newToken).state.db;
    if |sc.uploaded| > 0 {
      var recs := AssignBatch(sc.uploaded, NextBatchId(st.db));
      ScanWritesUniquePaths(st.db, ctx, st.storage, files);
      UploadedPathsWereUnrecorded(st, ctx, files);
      forall k, rec | 0 <= k < |recs| && rec in st.db.files ensures rec.filePath != recs[k].filePath {
        assert recs[k].filePath == sc.uploaded[k].filePath;
      }
      assert PathsUnique(recs) by {
        forall i, j | 0 <= i < j < |recs| ensures recs[i].filePath != recs[j].filePath {
          assert recs[i].filePath == sc.uploaded[i].filePath && recs[j].filePath == sc.uploaded[j].filePath;
        }
      }
      AttachKeepsKeysUnique(st.db, newToken, recs);
      assert db == AddUploadedFiles(CreateBatch(st.db, newToken).0, recs);
    } else if |sc.reuse| != 1 {
      AttachKeepsKeysUnique(st.db, newToken, []);
      assert db == AddUploadedFiles(CreateBatch(st.db, newToken).0, []);
    }
  }

  /**
   * An upload never disturbs a link handed out before: every token the
   * store already had resolves to the same paths afterwards.
   */
  lemma UploadKeepsEarlierLinks(st: State, ctx: Context, files: seq<Option<FormFile>>, newToken: string, t: string)
    requires Valid(st.db) && IsGuidN(newToken) && newToken !in Tokens(st.db)
    requires t in Tokens(st.db)
    ensures GetFilePathsByToken(SaveUploadedFiles(st, ctx, files, newToken).state.db, t) == GetFilePathsByToken(st.db, t)
  {
    var sc := ScanFiles(st.db, ctx, st.storage, files);
    var db := SaveUploadedFiles(st, ctx, files, newToken).state.db;
    if |sc.uploaded| > 0 {
      var recs := AssignBatch(sc.uploaded, NextBatchId(st.db));
      AttachKeepsEarlierLinks(st.db, newToken, recs, t);
      assert db == AddUploadedFiles(CreateBatch(st.db, newToken).0, recs);
    } else if |sc.reuse| != 1 {
      AttachKeepsEarlierLinks(st.db, newToken, [], t);
      assert db == AddUploadedFiles(CreateBatch(st.db, newToken).0, []);
    }
  }

  /** A request of one file is one step of the walk. */
  lemma {:induction false} SingleFileScan(db: Store, ctx: Context, storage: set<string>, f: Option<FormFile>)
    ensures ScanFiles(db, ctx, storage, [f]) == Step(db, ctx, Scan([], [], {}, storage), f)
  {
    assert [f][..0] == [];
  }

  /** A single new file is written into a new batch carrying the new token. */
  lemma SingleNewFileUpload(st: State, ctx: Context, f: FormFile, newToken: string)
    requires IsGuidN(newToken) && newToken !in Tokens(st.db)
    requires Admitted(ctx.maxSize, Some(f)) && ReuseToken(st.db, ctx, f).None?
    requires StorageOf(ctx, f) !in st.storage
    ensures var r := SaveUploadedFiles(st, ctx, [Some(f)], newToken);
      && r.result == UploadResult(newToken, [])
      && r.state.db == AddUploadedFiles(CreateBatch(st.db, newToken).0, AssignBatch([Record(ctx, f)], NextBatchId(st.db)))
  {
    var sc := ScanFiles(st.db, ctx, st.storage, [Some(f)]);
    assert sc == Scan([], [Record(ctx, f)], {}, st.storage + {StorageOf(ctx, f)}) by {
      SingleFileScan(st.db, ctx, st.storage, Some(f));
      StepAgainstClaims(st.db, ctx, Scan([], [], {}, st.storage), Some(f), st.storage, Classify(st.db, ctx, st.storage, Some(f)));
    }
  }

  /**
   * A single admitted file that misses the dedup lookup while its storage
   * path is taken is skipped; the request still creates a new empty batch.
   */
  lemma SingleOrphanFileUpload(st: State, ctx: Context, f: FormFile, newToken: string)
    requires IsGuidN(newToken) && newToken !in Tokens(st.db)
    requires Admitted(ctx.maxSize, Some(f)) && ReuseToken(st.db, ctx, f).None?
    requires StorageOf(ctx, f) in st.storage
    ensures var r := SaveUploadedFiles(st, ctx, [Some(f)], newToken);
      && r.result == UploadResult(newToken, [BaseName(f.fileName)])
      && r.state == State(CreateBatch(st.db, newToken).0, st.storage)
  {
    var sc := ScanFiles(st.db, ctx, st.storage, [Some(f)]);
    assert sc == Scan([BaseName(f.fileName)], [], {}, st.storage) by {
      SingleFileScan(st.db, ctx, st.storage, Some(f));
      StepAgainstClaims(st.db, ctx, Scan([], [], {}, st.storage), Some(f), st.storage, Classify(st.db, ctx, st.storage, Some(f)));
    }
  }

  /** A single file found by the dedup lookup returns the found token and changes nothing. */
  lemma SingleRecordedFileUpload(st: State, ctx: Context, f: FormFile, t: string, newToken: string)
    requires IsGuidN(newToken) && newToken !in Tokens(st.db)
    requires Admitted(ctx.maxSize, Some(f)) && ReuseToken(st.db, ctx, f) == Some(t)
    ensures var r := SaveUploadedFiles(st, ctx, [Some(f)], newToken);
      r.result == UploadResult(t, [BaseName(f.fileName)]) && r.state == st
  {
    var sc := ScanFiles(st.db, ctx, st.storage, [Some(f)]);
    assert sc == Scan([BaseName(f.fileName)], [], {t}, st.storage) by {
      SingleFileScan(st.db, ctx, st.storage, Some(f));
      StepAgainstClaims(st.db, ctx, Scan([], [], {}, st.storage), Some(f), st.storage, Classify(st.db, ctx, st.storage, Some(f)));
    }
    var r := SaveUploadedFiles(st, ctx, [Some(f)], newToken);
    assert |sc.uploaded| == 0 && |sc.reuse| == 1;
    assert r.state.db == st.db && {t} == {r.result.token};
    assert r.result.token == t;
    assert r.result.skippedFiles == sc.skipped && r.state.storage == st.storage;
  }

  /**
   * Uploading the same new file twice returns the same token: the first
   * request writes it under a new batch, the second finds it by the dedup
   * lookup, reports it skipped and changes nothing.
   */
  lemma ReuploadReturnsSameToken(st: State, ctx: Context, f: FormFile, t1: string, t2: string)
    requires Valid(st.db) && IsGuidN(t1) && t1 !in Tokens(st.db)
    requires Admitted(ctx.maxSize, Some(f))
    requires forall rec :: rec in st.db.files ==> rec.filePath != KeyOf(ctx, f)
    requires StorageOf(ctx, f) !in st.storage
    requires IsGuidN(t2) && t2 != t1 && t2 !in Tokens(st.db)
    ensures var o1 := SaveUploadedFiles(st, ctx, [Some(f)], t1);
      var o2 := SaveUploadedFiles(o1.state, ctx, [Some(f)], t2);
      && o1.result == UploadResult(t1, [])
      && o2.result == UploadResult(t1, [BaseName(f.fileName)])
      && o2.state == o1.state
  {
    SingleNewFileUpload(st, ctx, f, t1);
    var o1 := SaveUploadedFiles(st, ctx, [Some(f)], t1);
    RecordedFileIsFound(st.db, ctx, f, t1);
    assert Tokens(o1.state.db) == Tokens(st.db) + {t1};
    SingleRecordedFileUpload(o1.state, ctx, f, t1, t2);
  }

  /** Once a file's record is attached under a fresh batch, the dedup probe finds that batch's token. */
  lemma RecordedFileIsFound(db: Store, ctx: Context, f: FormFile, newToken: string)
    requires Valid(db) && IsGuidN(newToken) && newToken !in Tokens(db)
    requires forall rec :: rec in db.files ==> rec.filePath != KeyOf(ctx, f)
    ensures ReuseToken(AddUploadedFiles(CreateBatch(db, newToken).0, AssignBatch([Record(ctx, f)], NextBatchId(db))), ctx, f)
      == Some(newToken)
  {
    var recs := AssignBatch([Record(ctx, f)], NextBatchId(db));
    assert recs[0].filePath == KeyOf(ctx, f);
    AttachLookup(db, newToken, recs, 0);
  }

  /** Every record's path is the dedup key of its own owner. */
  ghost predicate OwnerKeyed(db: Store)
  {
    forall rec :: rec in db.files ==> exists n :: rec.filePath == DedupKey(rec.userId, n)
  }

  /**
   * Dedup is scoped by owner: in a store whose paths are owner keys, a
   * dedup hit for the caller's file always comes from one of the caller's
   * own records, so equal names from different users never dedup.
   */
  lemma DedupIsPerOwner(db: Store, ctx: Context, f: FormFile)
    requires OwnerKeyed(db)
    ensures ReuseToken(db, ctx, f).Some? ==>
      exists rec :: rec in db.files && rec.userId == ctx.userId && rec.filePath == KeyOf(ctx, f)
  {
    if ReuseToken(db, ctx, f).Some? {
      var rec :| rec in db.files && rec.filePath == KeyOf(ctx, f);
      var n :| rec.filePath == DedupKey(rec.userId, n);
      DedupKeyInjective(rec.userId, n, ctx.userId, BaseName(f.fileName));
    }
  }

  /** Uploads keep every record keyed by its owner. */
  lemma UploadKeepsOwnerKeyed(st: State, ctx: Context, files: seq<Option<FormFile>>, newToken: string)
    requires OwnerKeyed(st.db) && IsGuidN(newToken) && newToken !in Tokens(st.db)
    ensures OwnerKeyed(SaveUploadedFiles(st, ctx, files, newToken).state.db)
  {
    var sc := ScanFiles(st.db, ctx, st.storage, files);
    var db' := SaveUploadedFiles(st, ctx, files, newToken).state.db;
    ScanWritesFreshPaths(st.db, ctx, st.storage, files);
    forall rec | rec in db'.files ensures exists n :: rec.filePath == DedupKey(rec.userId, n) {
      if rec !in st.db.files {
        var recs := AssignBatch(sc.uploaded, NextBatchId(st.db));
        assert db'.files == st.db.files + recs;
        var k :| 0 <= k < |recs| && recs[k] == rec;
        var f :| f in files && ReachesStorage(st.db, ctx, f) && sc.uploaded[k] == Record(ctx, f.value);
        assert rec.filePath == DedupKey(rec.userId, BaseName(f.value.fileName));
      }
    }
  }
}

=== FILE: path_text.dfy ===
/**
 * The string helpers the upload service relies on: rendering a user id in
 * decimal (`int.ToString()`), `Path.GetFileName`, `Path.Combine` with the
 * POSIX separator, and the owner-scoped dedup key `uploads/{userId}/{name}`.
 */
module PathText {

  const Separator: char := '/'

  function DigitChar(d: nat): (c: char)
    requires d < 10
    ensures '0' <= c <= '9'
  {
    ('0' as int + d) as char
  }

  /** Decimal rendering of a natural number, most significant digit first. */
  function NatToString(n: nat): (s: string)
    ensures 1 <= |s|
    ensures n < 10 <==> |s| == 1
    ensures forall k :: 0 <= k < |s| ==> '0' <= s[k] <= '9'
    decreases n
  {
    if n < 10 then [DigitChar(n)] else NatToString(n / 10) + [DigitChar(n % 10)]
  }

  /**
   * `int.ToString()` with the invariant culture's symbols: ASCII digits and
   * a leading '-' for negatives.
   */
  function IntToString(i: int): (s: string)
    ensures 1 <= |s|
    ensures s[0] == '-' <==> i < 0
    ensures Separator !in s
  {
    if i < 0 then "-" + NatToString(-i) else NatToString(i)
  }

  lemma {:induction false} NatToStringInjective(a: nat, b: nat)
    requires NatToString(a) == NatToString(b)
    ensures a == b
    decreases a
  {
    if 10 <= a && 10 <= b {
      var sa, sb := NatToString(a / 10), NatToString(b / 10);
      assert NatToString(a) == sa + [DigitChar(a % 10)];
      assert NatToString(b) == sb + [DigitChar(b % 10)];
      assert |sa| == |sb|;
      assert DigitChar(a % 10) == NatToString(a)[|sa|] == NatToString(b)[|sb|] == DigitChar(b % 10);
      assert sa == NatToString(a)[..|sa|] == NatToString(b)[..|sb|] == sb;
      NatToStringInjective(a / 10, b / 10);
    }
  }

  /** Distinct user ids render to distinct strings. */
  lemma IntToStringInjective(a: int, b: int)
    requires IntToString(a) == IntToString(b)
    ensures a == b
  {
    if a < 0 && b < 0 {
      assert NatToString(-a) == IntToString(a)[1..] == IntToString(b)[1..] == NatToString(-b);
      NatToStringInjective(-a, -b);
    } else if a >= 0 && b >= 0 {
      NatToStringInjective(a, b);
    }
  }

  /**
   * `Path.GetFileName` on a POSIX host: the part of the path after its last
   * separator (the whole path when it has none, empty when it ends in one).
   */
  function BaseName(p: string): (b: string)
    ensures Separator !in b && |b| <= |p|
  {
    if |p| == 0 then ""
    else if p[|p| - 1] == Separator then ""
    else BaseName(p[..|p| - 1]) + [p[|p| - 1]]
  }

  /**
   * The file name is the last segment: a suffix of the path that is either
   * the whole path or preceded by a separator.
   */
  lemma {:induction false} BaseNameIsLastSegment(p: string)
    ensures var b := BaseName(p);
      && b == p[|p| - |b|..]
      && (|b| < |p| ==> p[|p| - |b| - 1] == Separator)
    decreases |p|
  {
    if |p| > 0 && p[|p| - 1] != Separator {
      var q := p[..|p| - 1];
      BaseNameIsLastSegment(q);
      var b := BaseName(q);
      assert BaseName(p) == b + [p[|p| - 1]];
      assert q[|q| - |b|..] + [p[|p| - 1]] == p[|p| - |b| - 1..];
    }
  }

  /** A name without a separator is its own file name, so `BaseName` is idempotent. */
  lemma {:induction false} BaseNameOfPlainName(p: string)
    requires Separator !in p
    ensures BaseName(p) == p
    decreases |p|
  {
    if |p| > 0 {
      var q := p[..|p| - 1];
      assert forall k :: 0 <= k < |q| ==> q[k] == p[k];
      BaseNameOfPlainName(q);
      assert p == q + [p[|p| - 1]];
    }
  }

  /** A plain name after a separator (or after nothing) is the file name of the result. */
  lemma {:induction false} BaseNameAfterSeparator(pre: string, name: string)
    requires |pre| == 0 || pre[|pre| - 1] == Separator
    requires Separator !in name
    ensures BaseName(pre + name) == name
    decreases |name|
  {
    if |name| == 0 {
      assert pre + name == pre;
    } else {
      var q, c := name[..|name| - 1], name[|name| - 1];
      assert forall k :: 0 <= k < |q| ==> q[k] == name[k];
      assert c in name;
      BaseNameAfterSeparator(pre, q);
      assert (pre + name)[..|pre + name| - 1] == pre + q;
      assert (pre + name)[|pre + name| - 1] == c != Separator;
      assert BaseName(pre + name) == BaseName(pre + q) + [c];
      assert name == q + [c];
    }
  }

  /**
   * `Path.Combine(a, b)`: an empty side yields the other, a rooted `b`
   * replaces `a`, and a separator is inserted unless `a` already ends in one.
   */
  function Combine(a: string, b: string): (r: string)
  {
    if |b| == 0 then a
    else if |a| == 0 then b
    else if b[0] == Separator then b
    else if a[|a| - 1] == Separator then a + b
    else a + [Separator] + b
  }

  /**
   * What combining means: an empty side yields the other, a rooted `b`
   * is the whole result, `b` is always the tail of the result, and two
   * non-empty relative parts are joined keeping `a` with exactly one
   * separator between them.
   */
  lemma CombineJoins(a: string, b: string)
    ensures var r := Combine(a, b);
      && (|b| == 0 ==> r == a)
      && (|a| == 0 ==> r == b)
      && (0 < |b| && b[0] == Separator ==> r == b)
      && |b| <= |r| && r[|r| - |b|..] == b
      && (0 < |a| && 0 < |b| && b[0] != Separator ==>
            && |r| == |a| + |b| + (if a[|a| - 1] == Separator then 0 else 1)
            && r[..|a|] == a
            && r[|r| - |b| - 1] == Separator)
  {
  }

  /** A plain name combined onto any directory is the file name of the result. */
  lemma CombinePlainName(dir: string, name: string)
    requires 0 < |name| && Separator !in name
    ensures BaseName(Combine(dir, name)) == name
  {
    var r := Combine(dir, name);
    CombineJoins(dir, name);
    if |dir| == 0 {
      BaseNameAfterSeparator("", name);
      assert "" + name == name;
    } else {
      assert name[0] in name;
      var pre := r[..|r| - |name|];
      assert r == pre + name;
      BaseNameAfterSeparator(pre, name);
    }
  }

  /** Where the service writes a user's file: `{webRoot}/uploads/{userId}/{name}`. */
  function StoragePath(webRoot: string, userId: int, name: string): (r: string)
  {
    Combine(Combine(Combine(webRoot, "uploads"), IntToString(userId)), name)
  }

  /**
   * A storage path ends in the name it was built from, and a plain name is
   * its file name, so distinct names of one user never share a storage path.
   */
  lemma StoragePathEndsInName(webRoot: string, userId: int, name: string)
    ensures var p := StoragePath(webRoot, userId, name);
      && |name| <= |p| && p[|p| - |name|..] == name
      && (0 < |name| && Separator !in name ==> BaseName(p) == name)
  {
    var dir := Combine(Combine(webRoot, "uploads"), IntToString(userId));
    CombineJoins(dir, name);
    if 0 < |name| && Separator !in name {
      CombinePlainName(dir, name);
    }
  }

  /** The logical path recorded for a user's file, which is also the dedup key. */
  function DedupKey(userId: int, name: string): (k: string)
    ensures |k| == 9 + |IntToString(userId)| + |name|
  {
    "uploads/" + IntToString(userId) + "/" + name
  }

  /** A dedup key is rooted at `uploads/`, and a plain name is its file name. */
  lemma DedupKeyNamesFile(userId: int, name: string)
    ensures DedupKey(userId, name)[..8] == "uploads/"
    ensures Separator !in name ==> BaseName(DedupKey(userId, name)) == name
  {
    var pre := "uploads/" + IntToString(userId) + "/";
    assert DedupKey(userId, name) == pre + name;
    if Separator !in name {
      BaseNameAfterSeparator(pre, name);
    }
  }

  /** A separator-free head followed by a separator splits a string in one way only. */
  lemma SplitAtFirstSeparator(h1: string, t1: string, h2: string, t2: string)
    requires Separator !in h1 && Separator !in h2
    requires h1 + [Separator] + t1 == h2 + [Separator] + t2
    ensures h1 == h2 && t1 == t2
  {
    var k := h1 + [Separator] + t1;
    assert forall i :: 0 <= i < |h1| ==> k[i] == h1[i] != Separator;
    assert forall i :: 0 <= i < |h2| ==> k[i] == h2[i] != Separator;
    assert k[|h1|] == Separator && k[|h2|] == Separator;
    assert |h1| == |h2|;
    assert h1 == k[..|h1|] == h2;
    assert t1 == k[|h1| + 1..] == t2;
  }

  /** Dedup keys never collide across users or across names. */
  lemma DedupKeyInjective(u1: int, n1: string, u2: int, n2: string)
    requires DedupKey(u1, n1) == DedupKey(u2, n2)
    ensures u1 == u2 && n1 == n2
  {
    var s1, s2 := IntToString(u1), IntToString(u2);
    var k1, k2 := DedupKey(u1, n1), DedupKey(u2, n2);
    assert k1[8..] == s1 + [Separator] + n1;
    assert k2[8..] == s2 + [Separator] + n2;
    SplitAtFirstSeparator(s1, n1, s2, n2);
    IntToStringInjective(u1, u2);
  }
}

=== FILE: search.dfy ===
/**
 * The one search the system performs over its tables: the position of the
 * first row satisfying a condition (what `FirstOrDefaultAsync` and a
 * primary-key `FindAsync` return), stated once over any row type.
 */
module Search {
  import opened Wrappers

  /** The position of the first element of `s` satisfying `p`, or none. */
  function FirstWhere<T>(s: seq<T>, p: T -> bool): (r: Option<nat>)
    ensures r.None? <==> forall k :: 0 <= k < |s| ==> !p(s[k])
    ensures r.Some? ==> r.value < |s| && p(s[r.value])
    ensures r.Some? ==> forall k :: 0 <= k < r.value ==> !p(s[k])
  {
    if |s| == 0 then None
    else
      var n := |s| - 1;
      match FirstWhere(s[..n], p)
      case Some(k) => Some(k)
      case None => if p(s[n]) then Some(n) else None
  }

  /** A first match is determined by its position: matching there and nowhere before. */
  lemma FirstWhereAt<T>(s: seq<T>, p: T -> bool, i: nat)
    requires i < |s| && p(s[i])
    requires forall k :: 0 <= k < i ==> !p(s[k])
    ensures FirstWhere(s, p) == Some(i)
  {
    assert FirstWhere(s, p).Some?;
  }

  /** Appending rows never moves a first match the table already has. */
  lemma FirstWhereExtend<T>(s: seq<T>, extra: seq<T>, p: T -> bool)
    requires FirstWhere(s, p).Some?
    ensures FirstWhere(s + extra, p) == FirstWhere(s, p)
  {
    var i := FirstWhere(s, p).value;
    assert (s + extra)[i] == s[i];
    assert forall k :: 0 <= k < i ==> (s + extra)[k] == s[k];
    FirstWhereAt(s + extra, p, i);
  }

  /** A row appended after rows that all miss is the first match. */
  lemma FirstWhereAppended<T>(s: seq<T>, x: T, p: T -> bool)
    requires forall y :: y in s ==> !p(y)
    requires p(x)
    ensures FirstWhere(s + [x], p) == Some(|s|)
  {
    assert (s + [x])[|s|] == x;
    forall k | 0 <= k < |s| ensures !p((s + [x])[k]) {
      assert (s + [x])[k] == s[k] && s[k] in s;
    }
    FirstWhereAt(s + [x], p, |s|);
  }
}

=== FILE: tasks.dfy ===
/**
 * Owner-scoped task access (`TaskService`) over the task table kept by
 * `TaskDbService`. The table is a sequence in store order whose ids are
 * distinct (the primary key); every operation the service exposes filters
 * by the caller's user id before reading or writing a row.
 */
module Tasks {
  import opened Wrappers
  import opened Search

  datatype TaskItem = TaskItem(id: int, userId: string, title: string, isCompleted: bool)

  type Table = seq<TaskItem>

  /** The primary-key invariant: no two rows share an id. */
  predicate Valid(t: Table)
  {
    forall i, j :: 0 <= i < j < |t| ==> t[i].id != t[j].id
  }

  function Ids(t: Table): (r: set<int>)
    ensures forall x :: x in t ==> x.id in r
    ensures forall id :: id in r ==> exists k :: 0 <= k < |t| && t[k].id == id
  {
    set k | 0 <= k < |t| :: t[k].id
  }

  function HasId(id: int): (r: TaskItem -> bool)
  {
    (x: TaskItem) => x.id == id
  }

  /** Lookup by primary key (`FindAsync`): the position of the row with `id`. */
  function FindTask(t: Table, id: int): (r: Option<nat>)
  {
    FirstWhere(t, HasId(id))
  }

  /** In a valid table the row found is the only row with that id. */
  lemma FoundIsUnique(t: Table, id: int, k: nat)
    requires Valid(t) && 0 <= k < |t| && t[k].id == id
    ensures FindTask(t, id) == Some(k)
  {
  }

  /** `GetUserTasksAsync`: the caller's rows, in store order. */
  function GetUserTasks(t: Table, userId: string): (r: Table)
    ensures forall x :: x in r <==> x in t && x.userId == userId
    ensures |r| <= |t|
  {
    if |t| == 0 then []
    else
      var n := |t| - 1;
      GetUserTasks(t[..n], userId) + (if t[n].userId == userId then [t[n]] else [])
  }

  /** `GetByIdAsync`: the row with `id` when the caller owns it, otherwise nothing. */
  function GetById(t: Table, id: int, userId: string): (r: Option<TaskItem>)
    ensures r.Some? ==> r.value in t && r.value.id == id && r.value.userId == userId
    ensures Valid(t) ==> (r.Some? <==> exists k :: 0 <= k < |t| && t[k].id == id && t[k].userId == userId)
  {
    match FindTask(t, id)
    case None => None
    case Some(k) => if t[k].userId == userId then Some(t[k]) else None
  }

  /**
   * `CreateAsync`: the new row takes the caller as owner whatever owner the
   * request carried; `newId` is the id the identity column hands out.
   */
  function Create(t: Table, task: TaskItem, userId: string, newId: int): (r: (Table, TaskItem))
    requires newId !in Ids(t)
    ensures r.1.userId == userId && r.1.id == newId
    ensures r.1.title == task.title && r.1.isCompleted == task.isCompleted
    ensures r.0 == t + [r.1]
    ensures Valid(t) ==> Valid(r.0)
  {
    var row := task.(id := newId, userId := userId);
    (t + [row], row)
  }

  /**
   * `UpdateAsync`: refused, with the table unchanged, unless the caller owns
   * row `id`; otherwise that row takes the new title and completion flag and
   * keeps its id and owner, and every other row is untouched.
   */
  function Update(t: Table, id: int, updated: TaskItem, userId: string): (r: (Table, bool))
    ensures !r.1 <==> GetById(t, id, userId).None?
    ensures !r.1 ==> r.0 == t
    ensures r.1 ==> |r.0| == |t| && forall k :: 0 <= k < |t| ==>
      r.0[k] == if k == FindTask(t, id).value
                then TaskItem(t[k].id, t[k].userId, updated.title, updated.isCompleted)
                else t[k]
  {
    match FindTask(t, id)
    case None => (t, false)
    case Some(k) =>
      if t[k].userId != userId then (t, false)
      else (t[k := t[k].(title := updated.title, isCompleted := updated.isCompleted)], true)
  }

  /** The table without row `k`: later rows move up by one. */
  function RemoveAt(t: Table, k: nat): (r: Table)
    requires k < |t|
    ensures |r| == |t| - 1
    ensures forall j :: 0 <= j < |r| ==> r[j] == t[if j < k then j else j + 1]
  {
    seq(|t| - 1, j requires 0 <= j < |t| - 1 => t[if j < k then j else j + 1])
  }

  /**
   * `DeleteAsync`: refused, with the table unchanged, unless the caller owns
   * row `id`; otherwise exactly that row leaves the table.
   */
  function Delete(t: Table, id: int, userId: string): (r: (Table, bool))
    ensures !r.1 <==> GetById(t, id, userId).None?
    ensures !r.1 ==> r.0 == t
    ensures r.1 ==> r.0 == RemoveAt(t, FindTask(t, id).value)
  {
    match FindTask(t, id)
    case None => (t, false)
    case Some(k) =>
      if t[k].userId != userId then (t, false)
      else (RemoveAt(t, k), true)
  }

  // ---------------------------------------------------------------------
  // Properties across operations
  // ---------------------------------------------------------------------

  /** A user's list of a concatenation is the concatenation of the lists: store order is kept. */
  lemma {:induction false} UserTasksAppend(a: Table, b: Table, userId: string)
    ensures GetUserTasks(a + b, userId) == GetUserTasks(a, userId) + GetUserTasks(b, userId)
    decreases |b|
  {
    if |b| == 0 {
      assert a + b == a;
    } else {
      var n := |b| - 1;
      var last := if b[n].userId == userId then [b[n]] else [];
      assert (a + b)[..|a + b| - 1] == a + b[..n];
      assert GetUserTasks(a + b, userId) == GetUserTasks(a + b[..n], userId) + last;
      UserTasksAppend(a, b[..n], userId);
      assert GetUserTasks(b, userId) == GetUserTasks(b[..n], userId) + last;
    }
  }

  /** Splitting the table at row `k` splits every user's list accordingly. */
  lemma UserTasksAround(t: Table, k: nat, userId: string)
    requires k < |t|
    ensures GetUserTasks(t, userId)
      == GetUserTasks(t[..k], userId) + GetUserTasks([t[k]], userId) + GetUserTasks(t[k + 1..], userId)
  {
    assert t == t[..k] + [t[k]] + t[k + 1..];
    UserTasksAppend(t[..k] + [t[k]], t[k + 1..], userId);
    UserTasksAppend(t[..k], [t[k]], userId);
  }

  /** A created task is visible to its owner, at the end of their list, and to no one else. */
  lemma CreateThenRead(t: Table, task: TaskItem, userId: string, newId: int, other: string)
    requires Valid(t) && newId !in Ids(t) && other != userId
    ensures var r := Create(t, task, userId, newId);
      && GetById(r.0, newId, userId) == Some(r.1)
      && GetById(r.0, newId, other) == None
      && GetUserTasks(r.0, userId) == GetUserTasks(t, userId) + [r.1]
      && GetUserTasks(r.0, other) == GetUserTasks(t, other)
  {
    var r := Create(t, task, userId, newId);
    FoundIsUnique(r.0, newId, |t|);
    UserTasksAppend(t, [r.1], userId);
    UserTasksAppend(t, [r.1], other);
  }

  /** An accepted update keeps the key invariant and is read back by its owner. */
  lemma UpdateThenRead(t: Table, id: int, updated: TaskItem, userId: string)
    requires Valid(t)
    ensures var r := Update(t, id, updated, userId);
      && Valid(r.0)
      && (r.1 ==> GetById(r.0, id, userId) == Some(TaskItem(id, userId, updated.title, updated.isCompleted)))
  {
    var r := Update(t, id, updated, userId);
    if r.1 {
      var k := FindTask(t, id).value;
      assert r.0[k].id == id;
      FoundIsUnique(r.0, id, k);
    }
  }

  /** An update by one user leaves every other user's list exactly as it was. */
  lemma UpdateIsolatesOwners(t: Table, id: int, updated: TaskItem, userId: string, other: string)
    requires other != userId
    ensures GetUserTasks(Update(t, id, updated, userId).0, other) == GetUserTasks(t, other)
  {
    var r := Update(t, id, updated, userId);
    if r.1 {
      var k := FindTask(t, id).value;
      UserTasksAround(t, k, other);
      UserTasksAround(r.0, k, other);
      assert r.0[..k] == t[..k] && r.0[k + 1..] == t[k + 1..];
    }
  }

  /** Removing row `k` keeps every other row. */
  lemma RemoveAtKeepsOthers(t: Table, k: nat)
    requires k < |t|
    ensures forall x :: x in t && x != t[k] ==> x in RemoveAt(t, k)
  {
    var r := RemoveAt(t, k);
    forall x | x in t && x != t[k] ensures x in r {
      var j :| 0 <= j < |t| && t[j] == x;
      if j < k { assert r[j] == x; } else { assert r[j - 1] == x; }
    }
  }

  /** Removing a row before the last one commutes with dropping the last row. */
  lemma RemoveAtSnoc(t: Table, k: nat)
    requires k < |t| - 1
    ensures var r := RemoveAt(t, k);
      |r| > 0 && r[..|r| - 1] == RemoveAt(t[..|t| - 1], k) && r[|r| - 1] == t[|t| - 1]
  {
    var r := RemoveAt(t, k);
    assert r[..|r| - 1] == RemoveAt(t[..|t| - 1], k);
  }

  /** Removing a row another user owns leaves a user's list as it was. */
  lemma {:induction false} UserTasksWithout(t: Table, k: nat, userId: string)
    requires k < |t| && t[k].userId != userId
    ensures GetUserTasks(RemoveAt(t, k), userId) == GetUserTasks(t, userId)
    decreases |t|
  {
    var n := |t| - 1;
    var r := RemoveAt(t, k);
    if k == n {
      assert r == t[..n];
    } else {
      RemoveAtSnoc(t, k);
      UserTasksWithout(t[..n], k, userId);
    }
  }

  /** After an accepted delete no one can read the id, and every other row remains. */
  lemma DeleteThenRead(t: Table, id: int, userId: string, anyone: string)
    requires Valid(t)
    ensures var r := Delete(t, id, userId);
      && Valid(r.0)
      && (r.1 ==> GetById(r.0, id, anyone) == None)
      && (forall x :: x in t && x.id != id ==> x in r.0)
  {
    var r := Delete(t, id, userId);
    if r.1 {
      var k := FindTask(t, id).value;
      RemoveAtKeepsOthers(t, k);
      forall i, j | 0 <= i < j < |r.0| ensures r.0[i].id != r.0[j].id {
        assert r.0[i] == t[if i < k then i else i + 1];
        assert r.0[j] == t[if j < k then j else j + 1];
      }
      forall j | 0 <= j < |r.0| ensures r.0[j].id != id {
        assert r.0[j] == t[if j < k then j else j + 1];
      }
    }
  }

  /** A delete by one user leaves every other user's list exactly as it was. */
  lemma DeleteIsolatesOwners(t: Table, id: int, userId: string, other: string)
    requires other != userId
    ensures GetUserTasks(Delete(t, id, userId).0, other) == GetUserTasks(t, other)
  {
    if Delete(t, id, userId).1 {
      UserTasksWithout(t, FindTask(t, id).value, other);
    }
  }
}

=== FILE: uploads_controller.dfy ===
/**
 * The HTTP entry points of the upload engine (`UploadsController`): the
 * whole-request admission checks in front of `SaveUploadedFiles`, the shape
 * of the shareable URL, and the not-found rule for shared links.
 */
module UploadsController {
  import opened Wrappers
  import opened FileDb
  import opened FileUpload
  import opened PathText

  datatype UploadResponse =
    | BadRequest(message: string)
    | Ok(message: string, shareableUrl: string, skippedFiles: seq<string>)

  datatype SharedResponse =
    | NotFound(message: string)
    | Files(urls: seq<string>)

  const NoFiles := "No files uploaded"
  const EmptyFile := "One or more files are empty"
  const TooLarge := "One or more files exceed the size limit"
  const Uploaded := "Files uploaded successfully."
  const InvalidLink := "Invalid or expired link"

  /**
   * The admission checks, in their fixed order; the first failing check
   * names the rejection. `None` admits the request.
   */
  function Admission(files: Option<seq<FormFile>>, maxFileSize: int): (r: Option<string>)
    ensures r == Some(NoFiles) <==> files.None? || |files.value| == 0
    ensures r == Some(EmptyFile) <==>
      files.Some? && |files.value| > 0 && exists k :: 0 <= k < |files.value| && files.value[k].length == 0
    ensures r == Some(TooLarge) <==>
      && files.Some? && |files.value| > 0
      && (forall k :: 0 <= k < |files.value| ==> files.value[k].length != 0)
      && exists k :: 0 <= k < |files.value| && files.value[k].length > maxFileSize
    ensures r.None? <==>
      files.Some? && |files.value| > 0
      && forall k :: 0 <= k < |files.value| ==> Admitted(maxFileSize, Some(files.value[k]))
  {
    if files.None? || |files.value| == 0 then Some(NoFiles)
    else if exists k :: 0 <= k < |files.value| && files.value[k].length == 0 then Some(EmptyFile)
    else if exists k :: 0 <= k < |files.value| && files.value[k].length > maxFileSize then Some(TooLarge)
    else None
  }

  /** The list handed to the service: model binding never produces null entries. */
  function AsFormList(files: seq<FormFile>): (r: seq<Option<FormFile>>)
    ensures |r| == |files| && forall k :: 0 <= k < |files| ==> r[k] == Some(files[k])
  {
    seq(|files|, k requires 0 <= k < |files| => Some(files[k]))
  }

  function ShareableUrl(baseUrl: string, token: string): (r: string)
  {
    baseUrl + "/uploads/shared/" + token
  }

  /**
   * `Upload`: a rejected request never reaches the service and changes
   * nothing; an admitted one returns the service's token as a shareable URL
   * and its skipped-file list unchanged. `userId` is the caller's claim.
   */
  function Upload(st: State, files: Option<seq<FormFile>>, userId: int, maxFileSize: int,
                  webRoot: string, baseUrl: string, newToken: string): (r: (UploadResponse, State))
    requires IsGuidN(newToken) && newToken !in Tokens(st.db)
    ensures r.0.BadRequest? <==> Admission(files, maxFileSize).Some?
    ensures r.0.BadRequest? ==> r.0.message == Admission(files, maxFileSize).value && r.1 == st
    ensures r.0.Ok? ==>
      var o := SaveUploadedFiles(st, Context(userId, maxFileSize, webRoot), AsFormList(files.value), newToken);
      && r.0 == Ok(Uploaded, baseUrl + "/uploads/shared/" + o.result.token, o.result.skippedFiles)
      && r.1 == o.state
  {
    match Admission(files, maxFileSize)
    case Some(message) => (BadRequest(message), st)
    case None =>
      var o := SaveUploadedFiles(st, Context(userId, maxFileSize, webRoot), AsFormList(files.value), newToken);
      (Ok(Uploaded, ShareableUrl(baseUrl, o.result.token), o.result.skippedFiles), o.state)
  }

  /** `GetSharedFiles`: not found exactly when the token resolves to no URL. */
  function GetSharedFiles(db: Store, token: string, baseUrl: string): (r: SharedResponse)
    ensures r.NotFound? <==> GetFilePathsByToken(db, token) == []
    ensures r.NotFound? ==> r.message == InvalidLink
    ensures r.Files? ==> |r.urls| > 0 && r.urls == GetSharedFileUrls(db, token, baseUrl)
  {
    var urls := GetSharedFileUrls(db, token, baseUrl);
    if |urls| == 0 then NotFound(InvalidLink) else Files(urls)
  }

  /**
   * Once the controller admits a request, the service rejects none of its
   * files: every skipped file was skipped as a duplicate or an occupied
   * path, never by the service's own admission check.
   */
  lemma AdmittedRequestRejectsNothing(st: State, files: seq<FormFile>, userId: int, maxFileSize: int, webRoot: string)
    requires Admission(Some(files), maxFileSize).None?
    ensures var ctx := Context(userId, maxFileSize, webRoot);
      forall d :: d in Fates(st.db, ctx, st.storage, AsFormList(files)) ==> d != Rejected
  {
    var ctx := Context(userId, maxFileSize, webRoot);
    var ds := Fates(st.db, ctx, st.storage, AsFormList(files));
    forall k | 0 <= k < |ds| ensures ds[k] != Rejected {
      FatesAt(st.db, ctx, st.storage, AsFormList(files), k);
      assert Admitted(maxFileSize, AsFormList(files)[k]);
    }
  }

  /** The public URL of each record, in record order. */
  function RecordUrls(baseUrl: string, fs: seq<UploadedFile>): (urls: seq<string>)
    ensures |urls| == |fs|
    ensures forall k :: 0 <= k < |fs| ==> urls[k] == baseUrl + "/" + fs[k].filePath
  {
    seq(|fs|, k requires 0 <= k < |fs| => baseUrl + "/" + fs[k].filePath)
  }

  /** The URLs of a token whose batch lists `fs`: one per record, in record order. */
  lemma SharedUrlsOfRecords(db: Store, token: string, baseUrl: string, fs: seq<UploadedFile>)
    requires GetFilePathsByToken(db, token) == PathsOf(fs) && |fs| > 0
    ensures GetSharedFiles(db, token, baseUrl) == Files(RecordUrls(baseUrl, fs))
  {
    var urls := GetSharedFileUrls(db, token, baseUrl);
    var expected := RecordUrls(baseUrl, fs);
    assert |urls| == |expected| > 0;
    assert forall k :: 0 <= k < |urls| ==> urls[k] == expected[k];
  }

  /** A shared link of an upload that wrote files lists one URL per written file, in order. */
  lemma SharedLinkListsWrittenFiles(st: State, files: seq<FormFile>, userId: int, maxFileSize: int,
                                    webRoot: string, baseUrl: string, newToken: string)
    requires Valid(st.db) && IsGuidN(newToken) && newToken !in Tokens(st.db)
    requires |ScanFiles(st.db, Context(userId, maxFileSize, webRoot), st.storage, AsFormList(files)).uploaded| > 0
    ensures var ctx := Context(userId, maxFileSize, webRoot);
      var sc := ScanFiles(st.db, ctx, st.storage, AsFormList(files));
      var o := SaveUploadedFiles(st, ctx, AsFormList(files), newToken);
      GetSharedFiles(o.state.db, o.result.token, baseUrl) == Files(RecordUrls(baseUrl, sc.uploaded))
  {
    var ctx := Context(userId, maxFileSize, webRoot);
    var fs := AsFormList(files);
    var sc := ScanFiles(st.db, ctx, st.storage, fs);
    var o := SaveUploadedFiles(st, ctx, fs, newToken);
    UploadRoundTrip(st, ctx, fs, newToken);
    SharedUrlsOfRecords(o.state.db, o.result.token, baseUrl, sc.uploaded);
  }

  /**
   * A file whose bytes are on disk with no record (an earlier request
   * stopped between writing and saving) is reported as skipped, and every
   * re-upload of it hands out a new token whose link is not found. The
   * store keeps its files and the disk is unchanged, so this repeats.
   */
  lemma OrphanReuploadGetsFreshDeadLink(st: State, ctx: Context, f: FormFile, t: string, baseUrl: string)
    requires Valid(st.db) && IsGuidN(t) && t !in Tokens(st.db)
    requires Admitted(ctx.maxSize, Some(f))
    requires forall rec :: rec in st.db.files ==> rec.filePath != KeyOf(ctx, f)
    requires StorageOf(ctx, f) in st.storage
    ensures var o := SaveUploadedFiles(st, ctx, [Some(f)], t);
      && o.result == UploadResult(t, [BaseName(f.fileName)])
      && GetSharedFiles(o.state.db, t, baseUrl) == NotFound(InvalidLink)
      && o.state.storage == st.storage && o.state.db.files == st.db.files
  {
    SingleOrphanFileUpload(st, ctx, f, t);
    CreateBatchResolvesEmpty(st.db, t, "");
  }
}

=== FILE: wrappers.dfy ===
/** The optional value used wherever the source returns a nullable reference. */
module Wrappers {

  datatype Option<+T> = None | Some(value: T)
}
